=== FILE: README.md ===
# Prompt generator chat widget — a Dafny model of its chat logic

The widget (`prompt-generator-script.js`) is a browser chat front end. It posts each user message to a
workflow webhook, reads a reply out of whatever JSON comes back, renders the reply with a set of
regular-expression rewrites, and keeps a session id and a message history that can be reset and exported.

This project models three parts of the widget:

- **The response formatter** (`formatPromptResponse`): six global `replace` calls in a fixed order, then
  a wrapper added when a prompt item was produced. Module `Formatter` writes each rewrite as the
  left-to-right scan that `String.prototype.replace` with a `g` regex performs. Each matcher comes with
  a search-free predicate saying when the regex matches at a position, and an if-and-only-if lemma that
  the matcher returns exactly the match the ECMAScript engine picks:
  - the shortest body for the lazy rules;
  - the maximal digit run, and the longest whitespace run that still leaves a text character, for
    `^(\d+)\.\s+(.+)$` under the `gm` flags;
  - the next backtick for inline code.

  Module `FormatterProperties` proves what the whole pipeline does to whole inputs.
- **Reply extraction and error mapping** (`callWebhook`), in module `Webhook`:
  - JSON truthiness;
  - the `output` / `text` / `response` chain and its fallbacks;
  - the HTTP error for a status that is not ok;
  - the network-error rewrite of a `TypeError` about `fetch`.
- **Session and history state**, in module `Chat`:
  - the constructor's state, `generateSessionId` and `startNewSession`;
  - `sendMessage`, split at its `await` into `BeginSend` and `FinishSend`;
  - the history push of `addMessage`, including the case where rendering a non-string reply throws;
  - the snapshot and the file name of `exportChatHistory`.

Module `JsText` holds the ECMAScript character classes (`\s`, `\d`, line terminators), `includes`,
`trim`, `substr` and the decimal rendering of a non-negative integer. Module `Results` holds `Option`
and `Result`.

Inputs stand in for what the model cannot compute:
- the clock, the random number and the timestamps, given as parameters;
- what `fetch` and `response.json()` produce, given as a `FetchOutcome` value holding a `BodyOutcome`;
- `JSON.stringify`, given as a function parameter;
- the engine's wording of a thrown `TypeError`, given as strings.

## Model

| member | source | states |
|---|---|---|
| Formatter.Format | prompt-generator-script.js:182-204 | The formatted reply never contains a line feed: every `\n` has become `<br>`. |
| Formatter.RunEnd | prompt-generator-script.js:190 | The end of a character run lies between its start and the end of the text, and the character there is outside the run's class. |
| Formatter.RunEndCovers | prompt-generator-script.js:190 | Every character from the start up to the run end belongs to the run's class. |
| Formatter.LazyClose | prompt-generator-script.js:186-192 | A closing delimiter found by a lazy rule lies after the body start and fits inside the text. |
| Formatter.LazyCloseSound | prompt-generator-script.js:186-192 | A closing position found by a lazy rule is a legal close: the delimiter sits there and every body character before it is allowed (`.` rejects line terminators, `[\s\S]` accepts all). |
| Formatter.LazyCloseComplete | prompt-generator-script.js:186-192 | If some legal close exists, the lazy search finds one at or before it. |
| Formatter.LazyCloseCorrect | prompt-generator-script.js:186-192 | The lazy search returns position j exactly when j is the first legal closing delimiter (both directions). It returns nothing only when there is no legal close. |
| Formatter.LazyMatchAt | prompt-generator-script.js:186-192 | A lazy match spans at least both delimiters and ends inside the text. |
| Formatter.LazyMatchAtSound | prompt-generator-script.js:186-192 | A match reported at i is a regex match of `**(.*?)**`, `*(.*?)*` or ```` ```([\s\S]*?)``` ```` at i. |
| Formatter.LazyMatchAtComplete | prompt-generator-script.js:186-192 | Whenever the regex matches at i, the matcher reports a match ending no later. |
| Formatter.LazyMatchAtCorrect | prompt-generator-script.js:186-192 | The matcher reports end e exactly when e ends the shortest regex match at i (lazy semantics), both directions. |
| Formatter.TextStart | prompt-generator-script.js:190 | A text start chosen for `\s+(.+)` is within the whitespace run, inside the text, and not on a line terminator. |
| Formatter.TextStartLargest | prompt-generator-script.js:190 | The chosen text start is the largest admissible one, as greedy `\s+` backtracking yields. When none is admissible, every candidate is past the end or on a line terminator. |
| Formatter.NumberedMatchAt | prompt-generator-script.js:190 | A reported match has its positions in order: the digits end after the match start, the text starts two or more characters later (after `.` and whitespace), and the line end lies after the text start and within the input. The shape of the match is stated by NumberedMatchAtSound. |
| Formatter.NumberedMatchAtSound | prompt-generator-script.js:190 | Every match reported is a match of `^(\d+)\.\s+(.+)$` with the `m` flag: it starts a line, has a non-empty all-digit label followed by `.` and whitespace, and a text that starts on a character other than a line terminator and runs to the line end. |
| Formatter.NumberedMatchAtComplete | prompt-generator-script.js:190 | Whenever that regex matches at i, the matcher reports a match with the same digit run and a text start no earlier than the regex's; when the two text starts agree, it also reports the same line end. |
| Formatter.NumberedMatchAtCorrect | prompt-generator-script.js:190 | The matcher agrees with the regex match predicate in both directions, picking the engine's captures. |
| Formatter.InlineCodeMatchAt | prompt-generator-script.js:194 | A reported inline-code match is at least three characters long and ends within the input. The backticks around it are stated by InlineCodeMatchAtCorrect. |
| Formatter.InlineCodeMatchAtCorrect | prompt-generator-script.js:194 | The matcher reports end e exactly when `` `([^`]+)` `` matches at i ending at e: a backtick at i, the next backtick at e - 1, and at least one character, none a backtick, between them. |
| Formatter.NewlinesToBr | prompt-generator-script.js:196 | The result holds no line feed, and text without a line feed is left unchanged. What a line feed becomes is stated by NewlinesToBrChar and NewlinesToBrConcat. |
| FormatterProperties.NewlinesToBrChar | prompt-generator-script.js:196 | On one character, rule 6 turns a line feed into `<br>` and keeps every other character, a carriage return included. With NewlinesToBrConcat this fixes the result on every input. |
| FormatterProperties.LineFeedToBreak | prompt-generator-script.js:196 | A lone line feed becomes `<br>`. |
| FormatterProperties.FormatWrapping | prompt-generator-script.js:198-203 | The container is added exactly when the rewritten text contains `prompt-item`. Otherwise the rewritten text is returned as is. The output holds the marker iff the rewritten text does. |
| FormatterProperties.FormatPlainText | prompt-generator-script.js:184-203 | Text with no asterisk, backtick, numbered line or marker only has its line feeds turned into `<br>`. |
| FormatterProperties.RewritePlainText | prompt-generator-script.js:184-196 | Text with no asterisk, backtick or numbered line passes rules 1 to 5 unchanged. |
| FormatterProperties.FormatEmpty | prompt-generator-script.js:182-204 | An empty reply formats to the empty string. |
| FormatterProperties.FormatBold | prompt-generator-script.js:186-188 | `**x**` becomes `<strong>x</strong>` for a one-line x without asterisks, backticks or the marker. |
| FormatterProperties.FormatDoubleAsterisk | prompt-generator-script.js:186-188 | A lone `**` is skipped by the bold rule and then becomes the empty emphasis `<em></em>` under the italic rule. |
| FormatterProperties.BoldSkipsLonePair | prompt-generator-script.js:186 | One pair of asterisks cannot both open and close a bold span. |
| FormatterProperties.ItalicEmptySpan | prompt-generator-script.js:188 | `**` is an italic span with an empty body. |
| FormatterProperties.LazyScanSingleSpan | prompt-generator-script.js:186-192 | A delimiter, a body that does not hold the delimiter's first character (and is one line, unless the rule is dot-all), and a delimiter become open tag, body, close tag. |
| FormatterProperties.LazyScanWithoutDelimiter | prompt-generator-script.js:186-192 | A lazy rule leaves text without its delimiter character unchanged. |
| FormatterProperties.InlineCodeScanWithoutBacktick | prompt-generator-script.js:194 | The inline-code rule leaves text without a backtick unchanged. |
| FormatterProperties.NumberedScanWithoutNumberedLine | prompt-generator-script.js:190 | The numbered rule leaves text with no numbered line unchanged. |
| FormatterProperties.SingleLineIsNotNumbered | prompt-generator-script.js:190 | A single line that does not start with a digit has no numbered line. |
| FormatterProperties.NoNumberedMatchAt | prompt-generator-script.js:190 | The numbered rule cannot match away from a line start, or where the line does not start with a digit. |
| FormatterProperties.NumberedLineMatches | prompt-generator-script.js:190 | A line `<digits>.<ws><text>` at a line start matches with the label, the text start just after the single whitespace, and the line end. |
| FormatterProperties.NumberedLineScan | prompt-generator-script.js:190 | Such a line is replaced by its prompt item, and the scan resumes at the line end. |
| FormatterProperties.NumberedScanTwoLines | prompt-generator-script.js:190 | Two numbered lines joined by a line feed become two prompt items joined by that line feed. |
| FormatterProperties.NumberedScanCopiesNonDigit | prompt-generator-script.js:190 | The numbered rule copies a character that is not a digit. |
| FormatterProperties.NumberedScanCopiesRun | prompt-generator-script.js:190 | The numbered rule copies a run of characters that are not digits. |
| FormatterProperties.FormatTwoNumberedLines | prompt-generator-script.js:190-201 | A two-line numbered list becomes one container holding both prompt items in order, separated by one `<br>`. |
| FormatterProperties.FormatNumberedList | prompt-generator-script.js:190-201 | `1. first` / `2. second` formats to the container with items `1`/`first` and `2`/`second`. |
| FormatterProperties.FormatNumberedAcrossLineBreak | prompt-generator-script.js:190-201 | `\s+` crosses a line break, so `n.` followed by a line feed and a plain line is one prompt item holding the next line. |
| FormatterProperties.FormatNumberedInsideFence | prompt-generator-script.js:190-201 | The numbered rule runs before the code-block rule, so a numbered line inside a fence still becomes a prompt item. The output is a container around a code block holding the item between two `<br>`. |
| FormatterProperties.FencedNumberedScan | prompt-generator-script.js:190 | Inside a fence the numbered line becomes its prompt item, and the fence lines are copied. |
| FormatterProperties.CodeBlockAroundLine | prompt-generator-script.js:192 | A fence around a line without backticks becomes `<pre><code>` around the line and its two line feeds. |
| FormatterProperties.NewlinesToBrConcat | prompt-generator-script.js:196 | Replacing line feeds distributes over concatenation. |
| FormatterProperties.NewlinesToBrContains | prompt-generator-script.js:196 | For a pattern without `\n`, `<`, `>` and not inside `<br>`, the text after rule 6 contains it iff the text before does. |
| FormatterProperties.NewlinesToBrKeepsMarker | prompt-generator-script.js:196-199 | Rule 6 neither adds nor removes the `prompt-item` marker. |
| FormatterProperties.MarkerNotInContainerTags | prompt-generator-script.js:200 | The container tags do not hold `prompt-item`, although the class `prompts-container` starts like it. |
| FormatterProperties.PromptItemHasMarker | prompt-generator-script.js:190 | Every prompt item holds the `prompt-item` marker. |
| FormatterProperties.QuietLineSurvives | prompt-generator-script.js:188-196 | Rules 2 to 6 leave a line alone when it has no asterisk or backtick and does not start with a digit. |
| Webhook.FirstTruthy | prompt-generator-script.js:134-139 | The index found names a truthy property, and all earlier keys are falsy. Nothing is found only when every key is falsy. |
| Webhook.ExtractReply | prompt-generator-script.js:131-144 | A `null` body is an error (a `TypeError`), and only a `null` body is. Otherwise the reply is the first truthy of `output`, `text`, `response`. Failing that it is the body itself when it is a string, else the pretty-printed body. |
| Webhook.ExtractReplyIsChain | prompt-generator-script.js:134-144 | The ordered field search equals the source's `if` / `else if` chain, written out independently, on every non-null body. |
| Webhook.CatchMapping | prompt-generator-script.js:145-150 | A `TypeError` whose message includes `fetch` becomes an `Error` with the network message. Every other error is rethrown unchanged. The result is never such a `TypeError`. |
| Webhook.CallWebhook | prompt-generator-script.js:109-151 | The call succeeds iff a response arrived with an ok status and a parsed non-null body, and then it yields the extracted reply. A status outside 200..299 throws `HTTP <status>: <statusText>`. A rejected fetch, an unparsable body and a `null` body throw their error after the catch mapping. |
| Webhook.NetworkMessageIsNotHttp | prompt-generator-script.js:145-150 | The network message differs from every HTTP error message. |
| Webhook.HttpErrorMessageInjective | prompt-generator-script.js:127-128 | The HTTP error message determines both the status and the status text. |
| Chat.GenerateSessionId | prompt-generator-script.js:59-61 | A session id is at most `session_`, the clock digits, `_` and nine characters long, and exactly that long when the base-36 rendering has at least eleven characters. |
| Chat.SessionIdInjective | prompt-generator-script.js:59-61 | Equal session ids come from the same millisecond and the same nine random characters. |
| Chat.AddMessage | prompt-generator-script.js:179 | The history grows by exactly one entry at its end, the earlier entries are untouched, and the id and loading flag are kept. |
| Chat.BeginSend | prompt-generator-script.js:84-96 | The send is ignored iff the input is blank or a send is in flight. Otherwise the trimmed, non-empty text is stored as a user entry and loading is set. The request carries that text and the current session id. |
| Chat.FinishSend | prompt-generator-script.js:98-106 | One `ai` entry is appended and loading is cleared. It holds the string reply as it came, the error reply for a non-string reply, or the error reply with the thrown error's message. |
| Chat.ErrorDetail | prompt-generator-script.js:103 | An error reply read back has the standard start and end around the reported message. |
| Chat.ErrorReplyRoundTrip | prompt-generator-script.js:103 | Reading an error reply back yields exactly the message it was built from. |
| Chat.SendIgnored | prompt-generator-script.js:85-86 | A blank input, or a send while one is in flight, changes nothing. |
| Chat.SendAppendsTwo | prompt-generator-script.js:84-107 | Every other send appends exactly the user's trimmed entry and then one `ai` entry, whatever the webhook answered. It keeps the session id and ends with loading cleared. |
| Chat.SendHttpError | prompt-generator-script.js:127-128 | A refused request stores `Sorry, I encountered an error: HTTP <status>: <statusText>. Please try again in a moment.` |
| Chat.SendNetworkError | prompt-generator-script.js:145-148 | A fetch failing with a `TypeError` about `fetch` stores the error reply carrying the network message. |
| Chat.NetworkReplyIsNotHttp | prompt-generator-script.js:103 | The error reply stored for a failed transport differs from every error reply stored for a refused request, whatever the status and status text. |
| Chat.SendReply | prompt-generator-script.js:99-100 | A string reply from the webhook is stored as the `ai` entry exactly as extracted. |
| Chat.ResetDuringSend | prompt-generator-script.js:67-69 | A reset while a reply is awaited keeps further sends blocked. When the reply arrives, it becomes the new session's only entry. |
| Chat.FreshStatesTrimmed | prompt-generator-script.js:3-5 | The initial state and a new session hold no user entries, so every user entry is trimmed. |
| Chat.BeginSendKeepsTrimmed | prompt-generator-script.js:85-89 | Starting a send keeps the invariant that every user entry is non-empty and has no leading or trailing whitespace. |
| Chat.AppendKeepsTrimmed | prompt-generator-script.js:179 | Appending an `ai` entry, or a user entry holding trimmed text, keeps that invariant. |
| Chat.FinishSendKeepsTrimmed | prompt-generator-script.js:98-106 | Finishing a send keeps that invariant. |
| Chat.SendKeepsTrimmed | prompt-generator-script.js:84-107 | A whole send keeps that invariant. |
| Chat.ExportAfterSend | prompt-generator-script.js:272-276 | An export taken after a send keeps the session id and holds the earlier messages in order, then the user's trimmed text, then the `ai` entry. |
| Chat.SessionOfFileName | prompt-generator-script.js:282 | A download name read back is `prompt-generator-history-<id>.json` for the id it yields. |
| Chat.ExportFileNameRoundTrip | prompt-generator-script.js:282 | A download name yields exactly the session id it was made for, so different sessions export under different names. |
| Chat.NewSessionExport | prompt-generator-script.js:67-69 | After a new session, an export carries the new id and no messages, and its download name differs from the previous session's whenever the ids differ. |
| JsText.TrimStart | prompt-generator-script.js:85 | The result is a suffix of the input, the dropped prefix is all whitespace, and the result does not start with whitespace. |
| JsText.TrimEnd | prompt-generator-script.js:85 | The result is a prefix of the input, the dropped suffix is all whitespace, and the result does not end with whitespace. |
| JsText.TrimIsSlice | prompt-generator-script.js:85 | `trim` returns a contiguous slice of its input, with only whitespace cut on either side. |
| JsText.TrimEnds | prompt-generator-script.js:85 | A trimmed text is empty, or starts and ends with a character other than whitespace. |
| JsText.TrimBlankIff | prompt-generator-script.js:85-86 | `trim` yields the empty string iff the input is all whitespace. |
| JsText.Substr | prompt-generator-script.js:60 | `substr(start, length)` yields at most `length` characters, taken contiguously from `start`, and exactly `length` when the text is long enough. |
| JsText.Decimal | prompt-generator-script.js:60 | The rendering of a non-negative integer is a non-empty digit string without a leading zero (except `0` itself). |
| JsText.DecimalRoundTrip | prompt-generator-script.js:60 | Reading the rendered digits back gives the number. |
| JsText.DecimalInjective | prompt-generator-script.js:60 | Different numbers render differently. |
| JsText.DecimalPrefixInjective | prompt-generator-script.js:60 | A rendering followed by a text starting with a non-digit determines both the number and the text. |
| JsText.ContainsConcat | prompt-generator-script.js:199 | When the pattern cannot straddle the join, `includes` on a concatenation holds iff it holds on one side. |
| JsText.StripAroundRoundTrip | prompt-generator-script.js:282 | Removing a known start and end from a text built with them yields the middle. |

## Left out

- The DOM is left out: elements, `innerHTML`, avatars, scrolling, notifications, CSS injection, the textarea resize, the button and keyboard wiring, `console.error` and `setLoading`'s disabling of controls. Only the `isLoading` flag of `setLoading` is modelled.
- `fetch`, `response.json()`, `Date`, `Math.random` and `JSON.stringify` are not computed. Their results are inputs: a `FetchOutcome`, a clock value, a base-36 rendering, timestamp strings and a pretty-printing function.
- The engine's messages for a `TypeError` are parameters (`nullRead`, `notAFunction`). These are reading a property of `null` and calling `replace` on a non-string.
- Concurrency is modelled only as the split of `sendMessage` at its `await` into `BeginSend` and `FinishSend`. `ResetDuringSend` covers one interleaving, a reset in between. Other interleavings of event handlers are not modelled.
- Strings are sequences of Unicode scalar values, while JavaScript strings are sequences of UTF-16 code units. The two differ for characters outside the Basic Multilingual Plane, which JavaScript holds as surrogate pairs; the rewrites use no `u` flag. They also differ for a reply holding an unpaired surrogate (a body such as `"\ud800"`), which no Dafny string can hold, so such a reply has no counterpart in the model. The rewrites would copy that code unit like any other character that is not special to them.
- JsText.Decimal: renders every non-negative integer in plain decimal. `Date.now()` and HTTP status codes stay far below 10^21, where JavaScript switches to exponent notation.
- Webhook.Json: numbers are reals. The floating-point value of a number is only used for truthiness.
- `callWebhook` pretty-prints a body that has no reply field and is not a string. A `null` body never gets there: reading `data.output` throws a `TypeError` first, and the model keeps that error.
- A truthy non-string reply field (an object, a number, `true`) is returned by `callWebhook`. `formatPromptResponse` then throws before anything is stored, and `sendMessage` stores the error reply. The model follows the code here too.
- Formatter.Format: its own contract states only that no line feed survives. The rest of its behaviour is stated by FormatterProperties.FormatWrapping (the container), FormatterProperties.FormatPlainText (text the rules do not touch), and the per-rule if-and-only-if lemmas Formatter.LazyMatchAtCorrect, Formatter.NumberedMatchAtCorrect and Formatter.InlineCodeMatchAtCorrect.
- FormatterProperties.FormatBold: requires the phrase to be a single line, free of all four line terminators (`\n`, `\r`, U+2028, U+2029), because `.` in `(.*?)` matches none of them.
- The export's `Blob`, object URL and download click are left out, as is the `JSON.stringify` of the snapshot. Only the snapshot's contents and the file name are modelled.
- Proof helpers are not in the table. These include Format's two branches, Rewrite split into its stages, NumberedScan at a match, literal facts about tag strings, regroupings and layouts of concrete inputs. Also left out are members whose contracts only spell out the record or branch they build: Webhook.Property, Chat.InitialState, Chat.StartNewSession, Chat.RenderReply, Chat.AddReply and Chat.ExportSnapshot. What they do is stated by ExtractReply and ExtractReplyIsChain, FreshStatesTrimmed, ResetDuringSend, NewSessionExport, FinishSend and ExportAfterSend. These members state nothing about the widget beyond the rows above.
- Some definitions carry no contract of their own and have no row; the rows reason about them. The scans Formatter.LazyScan (rules 1, 2 and 4), Formatter.NumberedScan (rule 3) and Formatter.InlineCodeScan (rule 5) are stated by LazyScanWithoutDelimiter, LazyScanSingleSpan, NumberedLineScan, NumberedScanWithoutNumberedLine, InlineCodeScanWithoutBacktick and the three *MatchAtCorrect lemmas. Formatter.Rewrite, the six-step chain, is stated by RewritePlainText and FormatWrapping. Chat.SendMessage is stated by SendIgnored, SendAppendsTwo and SendKeepsTrimmed. Webhook.Attempt, the `try` body of `callWebhook`, is stated by CallWebhook. JsText.Trim is stated by TrimIsSlice, TrimEnds and TrimBlankIff, and JsText.Contains (`includes`) by ContainsConcat. The template builders are paired with their rows: Formatter.PromptItem with PromptItemHasMarker, Webhook.HttpErrorMessage with HttpErrorMessageInjective, Chat.ErrorReply with ErrorReplyRoundTrip and Chat.ExportFileName with ExportFileNameRoundTrip.

=== FILE: chat.dfy ===
/**
 * The chat widget's own state: the session id, the message history and the loading flag, and how
 * sending a message, starting a new session and exporting the history change or read it.
 *
 * `sendMessage` awaits the webhook, so it is split at that point: `BeginSend` is what happens before
 * the call and `FinishSend` what happens when it settles; `SendMessage` runs both back to back. The
 * clock, the random source and the engine's error wordings are parameters.
 */
module Chat {
  import opened Results
  import opened JsText
  import opened Formatter
  import opened Webhook

  /** The `type` of a history entry: `'user'` or `'ai'`. */
  datatype Sender = User | Ai

  /** One entry of `messageHistory`: `{ type, content, timestamp }`. */
  datatype Entry = Entry(sender: Sender, content: string, timestamp: string)

  /** The fields of the widget the chat logic reads and writes. */
  datatype ChatState = ChatState(sessionId: string, history: seq<Entry>, isLoading: bool)

  /** The JSON payload posted to the webhook: `{ chatInput, sessionId }`. */
  datatype Request = Request(chatInput: string, sessionId: string)

  // ---------------------------------------------------------------------------------------------
  // session ids

  /**
   * `generateSessionId`: `session_`, the clock in milliseconds, `_`, and nine characters of the
   * base-36 rendering of a random number (`Math.random().toString(36).substr(2, 9)`, which skips its
   * leading `0.`). Both the clock and the rendering are inputs.
   */
  function GenerateSessionId(nowMillis: nat, randomBase36: string): (id: string)
    ensures |id| <= |"session_"| + |Decimal(nowMillis)| + 1 + 9
    ensures |randomBase36| >= 2 + 9 ==> |id| == |"session_"| + |Decimal(nowMillis)| + 1 + 9
  {
    "session_" + Decimal(nowMillis) + "_" + Substr(randomBase36, 2, 9)
  }

  /** Two session ids are equal only when they were made at the same millisecond with the same random part. */
  lemma SessionIdInjective(now1: nat, random1: string, now2: nat, random2: string)
    requires GenerateSessionId(now1, random1) == GenerateSessionId(now2, random2)
    ensures now1 == now2 && Substr(random1, 2, 9) == Substr(random2, 2, 9)
  {
    var a, b := "_" + Substr(random1, 2, 9), "_" + Substr(random2, 2, 9);
    SessionIdParts(now1, random1);
    SessionIdParts(now2, random2);
    PrefixCancel("session_", Decimal(now1) + a, Decimal(now2) + b);
    DecimalPrefixInjective(now1, now2, a, b);
    PrefixCancel("_", Substr(random1, 2, 9), Substr(random2, 2, 9));
  }

  /** The parts of a session id, grouped after its fixed start. */
  lemma SessionIdParts(nowMillis: nat, randomBase36: string)
    ensures GenerateSessionId(nowMillis, randomBase36)
         == "session_" + (Decimal(nowMillis) + ("_" + Substr(randomBase36, 2, 9)))
    ensures !IsDigit(("_" + Substr(randomBase36, 2, 9))[0])
  {
  }

  /** The state the constructor sets up: a fresh id, no history, nothing loading. */
  function InitialState(sessionId: string): (r: ChatState)
    ensures r.sessionId == sessionId && r.history == [] && !r.isLoading
  {
    ChatState(sessionId, [], false)
  }

  /** `startNewSession`: a new id and an empty history; the loading flag is left as it is. */
  function StartNewSession(st: ChatState, newId: string): (r: ChatState)
    ensures r.sessionId == newId && r.history == [] && r.isLoading == st.isLoading
  {
    ChatState(newId, [], st.isLoading)
  }

  // ---------------------------------------------------------------------------------------------
  // history

  /** The history push at the end of `addMessage`: one entry at the end, the earlier ones untouched. */
  function AddMessage(st: ChatState, sender: Sender, content: string, timestamp: string): (r: ChatState)
    ensures |r.history| == |st.history| + 1
    ensures r.history[..|st.history|] == st.history
    ensures r.history[|st.history|] == Entry(sender, content, timestamp)
    ensures r.sessionId == st.sessionId && r.isLoading == st.isLoading
  {
    st.(history := st.history + [Entry(sender, content, timestamp)])
  }

  /**
   * What `addMessage('ai', content)` renders before it stores anything: `formatPromptResponse`,
   * whose first `content.replace` throws a `TypeError` (worded `notAFunction` by the engine) when
   * the reply is not a string.
   */
  function RenderReply(content: Json, notAFunction: string): (r: Result<string, JsError>)
    ensures r.Ok? <==> content.JString?
    ensures r.Ok? ==> r.value == Format(content.s)
    ensures r.Err? ==> r.error == JsError("TypeError", notAFunction)
  {
    if content.JString? then Ok(Format(content.s)) else Err(JsError("TypeError", notAFunction))
  }

  /**
   * `addMessage('ai', content)`: renders the reply and then stores it as it came; when rendering
   * throws, nothing is stored and the error propagates.
   */
  function AddReply(st: ChatState, content: Json, timestamp: string, notAFunction: string): (r: Result<ChatState, JsError>)
    ensures r.Ok? <==> content.JString?
    ensures r.Ok? ==> r.value == AddMessage(st, Ai, content.s, timestamp)
    ensures r.Err? ==> r.error == JsError("TypeError", notAFunction)
  {
    match RenderReply(content, notAFunction)
    case Ok(_) => Ok(AddMessage(st, Ai, content.s, timestamp))
    case Err(e) => Err(e)
  }

  // ---------------------------------------------------------------------------------------------
  // sending

  /** What `sendMessage` does up to the webhook call: nothing, or the new state and the request it posts. */
  datatype SendStart = Ignored | Started(state: ChatState, request: Request)

  /**
   * `sendMessage` before the `await`: the input is trimmed; a blank input or a send already in
   * flight is ignored; otherwise the user's entry is stored, the loading flag is set and the request
   * carries the trimmed text and the current session id.
   */
  function BeginSend(st: ChatState, rawInput: string, timestamp: string): (r: SendStart)
    ensures r.Ignored? <==> Blank(rawInput) || st.isLoading
    ensures r.Started? ==>
      && r.state == AddMessage(st, User, Trim(rawInput), timestamp).(isLoading := true)
      && r.request == Request(Trim(rawInput), st.sessionId)
      && Trim(rawInput) != []
  {
    TrimBlankIff(rawInput);
    var message := Trim(rawInput);
    if message == [] || st.isLoading then Ignored
    else Started(AddMessage(st, User, message, timestamp).(isLoading := true), Request(message, st.sessionId))
  }

  /** The text stored for a failed send: `Sorry, I encountered an error: <message>. Please try again in a moment.` */
  function ErrorReply(message: string): string {
    ErrorReplyStart + message + ErrorReplyEnd
  }

  const ErrorReplyStart := "Sorry, I encountered an error: "
  const ErrorReplyEnd := ". Please try again in a moment."

  /** The error message an error reply reports, read back. */
  function ErrorDetail(reply: string): (r: Option<string>)
    ensures r.Some? ==> reply == ErrorReply(r.value)
  {
    StripAround(reply, ErrorReplyStart, ErrorReplyEnd)
  }

  /** An error reply reports exactly the message it was made from. */
  lemma ErrorReplyRoundTrip(message: string)
    ensures ErrorDetail(ErrorReply(message)) == Some(message)
  {
    StripAroundRoundTrip(ErrorReplyStart, message, ErrorReplyEnd);
  }

  /**
   * `sendMessage` after the `await`: the reply is stored as an `ai` entry, or, when the call threw
   * or rendering the reply threw, the error reply is; either way the loading flag is cleared.
   */
  function FinishSend(st: ChatState, outcome: Result<Json, JsError>, timestamp: string, notAFunction: string): (r: ChatState)
    ensures |r.history| == |st.history| + 1 && r.history[..|st.history|] == st.history
    ensures r.history[|st.history|].sender == Ai && r.history[|st.history|].timestamp == timestamp
    ensures r.sessionId == st.sessionId && !r.isLoading
    ensures outcome.Ok? && outcome.value.JString? ==> r.history[|st.history|].content == outcome.value.s
    ensures outcome.Ok? && !outcome.value.JString? ==> r.history[|st.history|].content == ErrorReply(notAFunction)
    ensures outcome.Err? ==> r.history[|st.history|].content == ErrorReply(outcome.error.message)
  {
    var attempt := match outcome
      case Ok(reply) => AddReply(st, reply, timestamp, notAFunction)
      case Err(e) => Err(e);
    var settled := match attempt
      case Ok(next) => next
      case Err(e) => AddMessage(st, Ai, ErrorReply(e.message), timestamp);
    settled.(isLoading := false)
  }

  /**
   * The whole of `sendMessage`, with the webhook answering `outcome`: the engine's wording of the
   * `TypeError`s for reading a property of `null` and for calling `replace` on a non-string, the
   * pretty-printer and the two timestamps are inputs.
   */
  function SendMessage(
    st: ChatState, rawInput: string, outcome: FetchOutcome, pretty: Json -> string,
    nullRead: string, notAFunction: string, sentAt: string, repliedAt: string): ChatState
  {
    match BeginSend(st, rawInput, sentAt)
    case Ignored => st
    case Started(next, _) => FinishSend(next, CallWebhook(outcome, pretty, nullRead), repliedAt, notAFunction)
  }

  /** A blank input, or a send while one is in flight, changes nothing. */
  lemma SendIgnored(
    st: ChatState, rawInput: string, outcome: FetchOutcome, pretty: Json -> string,
    nullRead: string, notAFunction: string, sentAt: string, repliedAt: string)
    requires Blank(rawInput) || st.isLoading
    ensures SendMessage(st, rawInput, outcome, pretty, nullRead, notAFunction, sentAt, repliedAt) == st
  {
    assert BeginSend(st, rawInput, sentAt).Ignored?;
  }

  /**
   * Any other send stores exactly two entries, the user's trimmed text and then the `ai` entry, and
   * ends with the loading flag cleared, whatever the webhook answered.
   */
  lemma SendAppendsTwo(
    st: ChatState, rawInput: string, outcome: FetchOutcome, pretty: Json -> string,
    nullRead: string, notAFunction: string, sentAt: string, repliedAt: string)
    requires !Blank(rawInput) && !st.isLoading
    ensures var r := SendMessage(st, rawInput, outcome, pretty, nullRead, notAFunction, sentAt, repliedAt);
      && |r.history| == |st.history| + 2 && r.history[..|st.history|] == st.history
      && r.history[|st.history|] == Entry(User, Trim(rawInput), sentAt)
      && r.history[|st.history| + 1].sender == Ai && r.history[|st.history| + 1].timestamp == repliedAt
      && r.sessionId == st.sessionId && !r.isLoading
  {
    var mid := BeginSend(st, rawInput, sentAt).state;
    var r := FinishSend(mid, CallWebhook(outcome, pretty, nullRead), repliedAt, notAFunction);
    assert SendMessage(st, rawInput, outcome, pretty, nullRead, notAFunction, sentAt, repliedAt) == r;
    TwoAppended(st.history, Entry(User, Trim(rawInput), sentAt), mid.history, r.history);
  }

  /** A history extended by one entry and then by one more keeps the original as its prefix. */
  lemma TwoAppended(h: seq<Entry>, e: Entry, mid: seq<Entry>, r: seq<Entry>)
    requires mid == h + [e] && |r| == |mid| + 1 && r[..|mid|] == mid
    ensures |r| == |h| + 2 && r[..|h|] == h && r[|h|] == e
  {
    assert r[..|h|] == r[..|mid|][..|h|];
    assert r[|h|] == r[..|mid|][|h|];
  }

  /** A send the server refuses stores the HTTP status and status text in the error reply. */
  lemma SendHttpError(
    st: ChatState, rawInput: string, status: nat, statusText: string, body: BodyOutcome,
    pretty: Json -> string, nullRead: string, notAFunction: string, sentAt: string, repliedAt: string)
    requires !Blank(rawInput) && !st.isLoading && !OkStatus(status)
    ensures var r := SendMessage(st, rawInput, Responded(status, statusText, body), pretty, nullRead, notAFunction, sentAt, repliedAt);
      && |r.history| == |st.history| + 2
      && r.history[|st.history| + 1].content
         == "Sorry, I encountered an error: HTTP " + Decimal(status) + ": " + statusText + ". Please try again in a moment."
  {
    var mid := BeginSend(st, rawInput, sentAt).state;
    var outcome := CallWebhook(Responded(status, statusText, body), pretty, nullRead);
    assert outcome.error.message == HttpErrorMessage(status, statusText);
    HttpErrorReplyText(status, statusText);
  }

  /** The error reply for an HTTP error, spelled out. */
  lemma HttpErrorReplyText(status: nat, statusText: string)
    ensures ErrorReply(HttpErrorMessage(status, statusText))
         == "Sorry, I encountered an error: HTTP " + Decimal(status) + ": " + statusText + ". Please try again in a moment."
  {
  }

  /** A send whose `fetch` fails with a `TypeError` about fetching stores the network error reply. */
  lemma SendNetworkError(
    st: ChatState, rawInput: string, fetchError: string,
    pretty: Json -> string, nullRead: string, notAFunction: string, sentAt: string, repliedAt: string)
    requires !Blank(rawInput) && !st.isLoading && Contains(fetchError, "fetch")
    ensures var r := SendMessage(st, rawInput, FetchRejected(JsError("TypeError", fetchError)), pretty, nullRead, notAFunction, sentAt, repliedAt);
      && |r.history| == |st.history| + 2
      && r.history[|st.history| + 1].content == ErrorReply(NetworkErrorMessage)
  {
    var mid := BeginSend(st, rawInput, sentAt).state;
    assert |mid.history| == |st.history| + 1;
  }

  /** A failed transport and a refused request leave different error replies in the history. */
  lemma NetworkReplyIsNotHttp(status: nat, statusText: string)
    ensures ErrorReply(NetworkErrorMessage) != ErrorReply(HttpErrorMessage(status, statusText))
  {
    ErrorReplyRoundTrip(NetworkErrorMessage);
    ErrorReplyRoundTrip(HttpErrorMessage(status, statusText));
    NetworkMessageIsNotHttp(status, statusText);
  }

  /** A send the webhook answers with a string reply stores that reply as it came. */
  lemma SendReply(
    st: ChatState, rawInput: string, status: nat, statusText: string, data: Json,
    pretty: Json -> string, nullRead: string, notAFunction: string, sentAt: string, repliedAt: string)
    requires !Blank(rawInput) && !st.isLoading && OkStatus(status) && !data.JNull?
    requires ExtractReply(data, pretty, nullRead).value.JString?
    ensures var r := SendMessage(st, rawInput, Responded(status, statusText, Parsed(data)), pretty, nullRead, notAFunction, sentAt, repliedAt);
      && |r.history| == |st.history| + 2
      && r.history[|st.history| + 1].content == ExtractReply(data, pretty, nullRead).value.s
  {
    var mid := BeginSend(st, rawInput, sentAt).state;
    assert |mid.history| == |st.history| + 1;
  }

  /**
   * A new session started while a reply is awaited: no second send can start, and when the reply
   * arrives it becomes the only entry of the new session's history.
   */
  lemma ResetDuringSend(
    st: ChatState, rawInput: string, newId: string, laterInput: string, outcome: Result<Json, JsError>,
    sentAt: string, laterAt: string, repliedAt: string, notAFunction: string)
    requires BeginSend(st, rawInput, sentAt).Started?
    ensures var reset := StartNewSession(BeginSend(st, rawInput, sentAt).state, newId);
      && BeginSend(reset, laterInput, laterAt).Ignored?
      && var r := FinishSend(reset, outcome, repliedAt, notAFunction);
         |r.history| == 1 && r.history[0].sender == Ai && r.sessionId == newId && !r.isLoading
  {
  }

  // ---------------------------------------------------------------------------------------------
  // an invariant of the history

  /** A text `trim` could not shorten, and not empty: what a user entry holds. */
  predicate TrimmedText(t: string) {
    |t| > 0 && !IsWhitespace(t[0]) && !IsWhitespace(t[|t| - 1])
  }

  /** Every user entry of the history holds a non-empty trimmed text. */
  predicate UserEntriesTrimmed(st: ChatState) {
    forall k :: 0 <= k < |st.history| && st.history[k].sender == User ==> TrimmedText(st.history[k].content)
  }

  /** The constructor's state and a new session hold no user entry at all. */
  lemma FreshStatesTrimmed(st: ChatState, newId: string)
    ensures UserEntriesTrimmed(InitialState(newId)) && UserEntriesTrimmed(StartNewSession(st, newId))
  {
  }

  /** Starting a send stores only a trimmed, non-empty user text. */
  lemma BeginSendKeepsTrimmed(st: ChatState, rawInput: string, timestamp: string)
    requires UserEntriesTrimmed(st)
    ensures BeginSend(st, rawInput, timestamp).Started? ==> UserEntriesTrimmed(BeginSend(st, rawInput, timestamp).state)
  {
    var r := BeginSend(st, rawInput, timestamp);
    if r.Started? {
      TrimmedInput(rawInput);
      AppendKeepsTrimmed(st, Entry(User, Trim(rawInput), timestamp), r.state);
    }
  }

  /** A non-blank input, trimmed, is a trimmed text. */
  lemma TrimmedInput(rawInput: string)
    requires Trim(rawInput) != []
    ensures TrimmedText(Trim(rawInput))
  {
    TrimEnds(rawInput);
  }

  /** Appending an entry that is not a user entry, or holds a trimmed text, keeps the invariant. */
  lemma AppendKeepsTrimmed(st: ChatState, entry: Entry, next: ChatState)
    requires UserEntriesTrimmed(st) && next.history == st.history + [entry]
    requires entry.sender == User ==> TrimmedText(entry.content)
    ensures UserEntriesTrimmed(next)
  {
    forall k | 0 <= k < |next.history| && next.history[k].sender == User
      ensures TrimmedText(next.history[k].content)
    {
      if k < |st.history| {
        assert next.history[k] == st.history[k];
      }
    }
  }

  /** Finishing a send adds an `ai` entry only. */
  lemma FinishSendKeepsTrimmed(st: ChatState, outcome: Result<Json, JsError>, timestamp: string, notAFunction: string)
    requires UserEntriesTrimmed(st)
    ensures UserEntriesTrimmed(FinishSend(st, outcome, timestamp, notAFunction))
  {
    var r := FinishSend(st, outcome, timestamp, notAFunction);
    forall k | 0 <= k < |r.history| && r.history[k].sender == User
      ensures TrimmedText(r.history[k].content)
    {
      assert k < |st.history|;
      assert r.history[k] == r.history[..|st.history|][k] == st.history[k];
    }
  }

  /** A whole send keeps every user entry trimmed. */
  lemma SendKeepsTrimmed(
    st: ChatState, rawInput: string, outcome: FetchOutcome, pretty: Json -> string,
    nullRead: string, notAFunction: string, sentAt: string, repliedAt: string)
    requires UserEntriesTrimmed(st)
    ensures UserEntriesTrimmed(SendMessage(st, rawInput, outcome, pretty, nullRead, notAFunction, sentAt, repliedAt))
  {
    var start := BeginSend(st, rawInput, sentAt);
    BeginSendKeepsTrimmed(st, rawInput, sentAt);
    if start.Started? {
      FinishSendKeepsTrimmed(start.state, CallWebhook(outcome, pretty, nullRead), repliedAt, notAFunction);
    }
  }

  // ---------------------------------------------------------------------------------------------
  // export

  /** What `exportChatHistory` serialises: `{ sessionId, messages, exportedAt }`. */
  datatype ExportData = ExportData(sessionId: string, messages: seq<Entry>, exportedAt: string)

  /** The snapshot of the current session, taken at `now`. */
  function ExportSnapshot(st: ChatState, now: string): (r: ExportData)
    ensures r.sessionId == st.sessionId && r.messages == st.history && r.exportedAt == now
  {
    ExportData(st.sessionId, st.history, now)
  }

  /**
   * An export taken after a send holds the session's earlier messages in order, followed by the
   * user's trimmed text and the `ai` entry.
   */
  lemma ExportAfterSend(
    st: ChatState, rawInput: string, outcome: FetchOutcome, pretty: Json -> string,
    nullRead: string, notAFunction: string, sentAt: string, repliedAt: string, now: string)
    requires !Blank(rawInput) && !st.isLoading
    ensures var snap := ExportSnapshot(SendMessage(st, rawInput, outcome, pretty, nullRead, notAFunction, sentAt, repliedAt), now);
      && snap.sessionId == st.sessionId && |snap.messages| == |st.history| + 2
      && snap.messages[..|st.history|] == st.history
      && snap.messages[|st.history|] == Entry(User, Trim(rawInput), sentAt)
      && snap.messages[|st.history| + 1].sender == Ai
  {
    SendAppendsTwo(st, rawInput, outcome, pretty, nullRead, notAFunction, sentAt, repliedAt);
  }

  /**
   * An export taken after a new session holds the new id and no messages, and is saved under a
   * different name from the previous session's exports unless the new id repeats the old one.
   */
  lemma NewSessionExport(st: ChatState, newId: string, now: string)
    ensures var snap := ExportSnapshot(StartNewSession(st, newId), now);
      snap.sessionId == newId && snap.messages == []
    ensures newId != st.sessionId ==> ExportFileName(newId) != ExportFileName(st.sessionId)
  {
    ExportFileNameRoundTrip(newId);
    ExportFileNameRoundTrip(st.sessionId);
  }

  const ExportPrefix := "prompt-generator-history-"
  const ExportSuffix := ".json"

  /** The download name: `prompt-generator-history-<sessionId>.json`. */
  function ExportFileName(sessionId: string): string {
    ExportPrefix + sessionId + ExportSuffix
  }

  /** The session id a download name was made for, read back. */
  function SessionOfFileName(name: string): (r: Option<string>)
    ensures r.Some? ==> name == ExportFileName(r.value)
  {
    StripAround(name, ExportPrefix, ExportSuffix)
  }

  /** A download name names the session it was made for, so different sessions export to different names. */
  lemma ExportFileNameRoundTrip(sessionId: string)
    ensures SessionOfFileName(ExportFileName(sessionId)) == Some(sessionId)
  {
    StripAroundRoundTrip(ExportPrefix, sessionId, ExportSuffix);
  }
}

=== FILE: formatter.dfy ===
/**
 * The response formatter (`formatPromptResponse`): six global regex rewrites applied in a fixed
 * order, then a wrapper when a prompt item was produced.
 *
 * Each rewrite is a left-to-right scan over the input of that rewrite, as `String.prototype.replace`
 * with a `g` regex performs it: try to match at position `i`; on a match, emit the replacement and
 * continue at the end of the match; otherwise copy `s[i]` and continue at `i + 1`. No rewrite here
 * can match the empty string, so the scan never has to step over an empty match.
 *
 * Every matcher comes with a ghost predicate that says, without any search, when the regex matches
 * at a position, and a lemma that the matcher returns exactly the match the regex engine picks
 * (shortest for lazy bodies, longest whitespace run for the greedy `\s+`).
 */
module Formatter {
  import opened Results
  import opened JsText

  // ---------------------------------------------------------------------------------------------
  // runs of characters

  /** The first index at or after `from` whose character is not in the run class, or `|s|`. */
  function RunEnd(s: string, from: nat, inRun: char -> bool): (j: nat)
    requires from <= |s|
    ensures from <= j <= |s|
    ensures j < |s| ==> !inRun(s[j])
    decreases |s| - from
  {
    if from == |s| || !inRun(s[from]) then from else RunEnd(s, from + 1, inRun)
  }

  /** Every character `RunEnd` steps over is in the run class. */
  lemma {:induction false} RunEndCovers(s: string, from: nat, inRun: char -> bool)
    requires from <= |s|
    ensures forall k :: from <= k < RunEnd(s, from, inRun) ==> inRun(s[k])
    decreases |s| - from
  {
    if from < |s| && inRun(s[from]) {
      RunEndCovers(s, from + 1, inRun);
    }
  }

  predicate NotLineTerminator(c: char) {
    !IsLineTerminator(c)
  }

  predicate NotBacktick(c: char) {
    c != '`'
  }

  // ---------------------------------------------------------------------------------------------
  // rules 1, 2 and 4: delimiter, lazy body, delimiter

  /**
   * A rewrite of the shape `/D(.*?)D/g`, or `/D([\s\S]*?)D/g` when `dotAll` holds: the literal
   * `delim` opens and closes a match, and the body between them is wrapped in `open` and `close`.
   */
  datatype LazyRule = LazyRule(delim: string, dotAll: bool, open: string, close: string)

  // Rule 1: `/\*\*(.*?)\*\*/g` becomes `<strong>$1</strong>`.
  const Bold := LazyRule("**", false, "<strong>", "</strong>")

  // Rule 2: `/\*(.*?)\*/g` becomes `<em>$1</em>`.
  const Italic := LazyRule("*", false, "<em>", "</em>")

  // Rule 4: the triple-backtick block `/```([\s\S]*?)```/g` becomes `<pre><code>$1</code></pre>`.
  const CodeBlock := LazyRule("```", true, "<pre><code>", "</code></pre>")

  predicate ValidRule(rule: LazyRule) {
    |rule.delim| > 0
  }

  /** `.` takes anything but a line terminator; `[\s\S]` takes anything. */
  predicate BodyChar(rule: LazyRule, c: char) {
    rule.dotAll || !IsLineTerminator(c)
  }

  /**
   * The lazy body starting at `from`: the first `j` where the closing delimiter occurs, as long as
   * every character skipped on the way is a body character.
   */
  function LazyClose(s: string, from: nat, rule: LazyRule): (r: Option<nat>)
    ensures r.Some? ==> from <= r.value && r.value + |rule.delim| <= |s|
    decreases |s| - from
  {
    if OccursAt(s, rule.delim, from) then Some(from)
    else if from < |s| && BodyChar(rule, s[from]) then LazyClose(s, from + 1, rule)
    else None
  }

  /** The regex accepts a body from `from` to `j` closed by the delimiter at `j`. */
  ghost predicate IsLazyClose(s: string, from: nat, rule: LazyRule, j: nat) {
    from <= j && OccursAt(s, rule.delim, j) && forall k :: from <= k < j ==> BodyChar(rule, s[k])
  }

  /** What `LazyClose` returns is a closing delimiter the regex accepts. */
  lemma {:induction false} LazyCloseSound(s: string, from: nat, rule: LazyRule)
    ensures LazyClose(s, from, rule).Some? ==> IsLazyClose(s, from, rule, LazyClose(s, from, rule).value)
    decreases |s| - from
  {
    if !OccursAt(s, rule.delim, from) && from < |s| && BodyChar(rule, s[from]) {
      LazyCloseSound(s, from + 1, rule);
    }
  }

  /** Whenever the regex accepts a closing delimiter at `j`, `LazyClose` finds one no later. */
  lemma {:induction false} LazyCloseComplete(s: string, from: nat, rule: LazyRule, j: nat)
    requires IsLazyClose(s, from, rule, j)
    ensures LazyClose(s, from, rule).Some? && LazyClose(s, from, rule).value <= j
    decreases |s| - from
  {
    if !OccursAt(s, rule.delim, from) {
      assert from < j;
      assert IsLazyClose(s, from + 1, rule, j);
      LazyCloseComplete(s, from + 1, rule, j);
    }
  }

  /**
   * `LazyClose` returns `j` exactly when the regex accepts a closing delimiter at `j` and at no
   * earlier position: the lazy `*?` takes the shortest body.
   */
  lemma LazyCloseCorrect(s: string, from: nat, rule: LazyRule, j: nat)
    ensures LazyClose(s, from, rule) == Some(j) <==>
      IsLazyClose(s, from, rule, j) && forall j': nat :: from <= j' < j ==> !IsLazyClose(s, from, rule, j')
    ensures LazyClose(s, from, rule).None? ==> !IsLazyClose(s, from, rule, j)
  {
    LazyCloseSound(s, from, rule);
    if IsLazyClose(s, from, rule, j) {
      LazyCloseComplete(s, from, rule, j);
    }
    forall j': nat | from <= j' < j && IsLazyClose(s, from, rule, j')
      ensures LazyClose(s, from, rule) != Some(j)
    {
      LazyCloseComplete(s, from, rule, j');
    }
  }

  /** The end of the match of `rule` at position `i`, if the regex matches there. */
  function LazyMatchAt(s: string, i: nat, rule: LazyRule): (r: Option<nat>)
    requires ValidRule(rule)
    ensures r.Some? ==> i + 2 * |rule.delim| <= r.value <= |s|
  {
    if OccursAt(s, rule.delim, i) then
      match LazyClose(s, i + |rule.delim|, rule)
      case Some(j) => Some(j + |rule.delim|)
      case None => None
    else None
  }

  /** The regex `D(body)D` matches `s[i..e]`. */
  ghost predicate IsLazyMatch(s: string, i: nat, rule: LazyRule, e: nat) {
    OccursAt(s, rule.delim, i) && e >= |rule.delim| && IsLazyClose(s, i + |rule.delim|, rule, e - |rule.delim|)
  }

  /** What `LazyMatchAt` returns is the end of a match the regex accepts. */
  lemma LazyMatchAtSound(s: string, i: nat, rule: LazyRule)
    requires ValidRule(rule)
    ensures LazyMatchAt(s, i, rule).Some? ==> IsLazyMatch(s, i, rule, LazyMatchAt(s, i, rule).value)
  {
    LazyCloseSound(s, i + |rule.delim|, rule);
  }

  /** Whenever the regex matches `s[i..e]`, `LazyMatchAt` finds a match ending no later than `e`. */
  lemma LazyMatchAtComplete(s: string, i: nat, rule: LazyRule, e: nat)
    requires ValidRule(rule)
    requires IsLazyMatch(s, i, rule, e)
    ensures LazyMatchAt(s, i, rule).Some? && LazyMatchAt(s, i, rule).value <= e
  {
    LazyCloseComplete(s, i + |rule.delim|, rule, e - |rule.delim|);
  }

  /** The matcher returns the shortest match the regex allows at `i`, and none when there is none. */
  lemma LazyMatchAtCorrect(s: string, i: nat, rule: LazyRule, e: nat)
    requires ValidRule(rule)
    ensures LazyMatchAt(s, i, rule) == Some(e) <==>
      IsLazyMatch(s, i, rule, e) && forall e': nat :: e' < e ==> !IsLazyMatch(s, i, rule, e')
    ensures LazyMatchAt(s, i, rule).None? ==> !IsLazyMatch(s, i, rule, e)
  {
    LazyMatchAtSound(s, i, rule);
    if IsLazyMatch(s, i, rule, e) {
      LazyMatchAtComplete(s, i, rule, e);
    }
    forall e': nat | e' < e && IsLazyMatch(s, i, rule, e')
      ensures LazyMatchAt(s, i, rule) != Some(e)
    {
      LazyMatchAtComplete(s, i, rule, e');
    }
  }

  /** The global replacement of `rule` over `s`, from position `i` on. */
  function LazyScan(s: string, i: nat, rule: LazyRule): string
    requires ValidRule(rule)
    decreases |s| - i
  {
    if i >= |s| then []
    else match LazyMatchAt(s, i, rule)
      case Some(e) => rule.open + s[i + |rule.delim|..e - |rule.delim|] + rule.close + LazyScan(s, e, rule)
      case None => [s[i]] + LazyScan(s, i + 1, rule)
  }

  // ---------------------------------------------------------------------------------------------
  // rule 3: numbered lines

  /** `^` in multiline mode: the start of the input or just after a line terminator. */
  predicate LineStartAt(s: string, i: nat) {
    i == 0 || (i <= |s| && IsLineTerminator(s[i - 1]))
  }

  /** Where a match of `/^(\d+)\.\s+(.+)$/gm` ends its digits, starts its text and ends its line. */
  datatype NumberedMatch = NumberedMatch(digitsEnd: nat, textStart: nat, lineEnd: nat)

  /**
   * The backtracking of the greedy `\s+`: the largest `p` in `[lo, hi]` at which `(.+)$` can start,
   * that is, a position holding a character other than a line terminator.
   */
  function TextStart(s: string, lo: nat, hi: nat): (r: Option<nat>)
    requires lo <= hi
    ensures r.Some? ==> lo <= r.value <= hi && r.value < |s| && !IsLineTerminator(s[r.value])
    decreases hi - lo
  {
    if hi < |s| && !IsLineTerminator(s[hi]) then Some(hi)
    else if hi == lo then None
    else TextStart(s, lo, hi - 1)
  }

  /** `TextStart` finds the largest start in range: every later position, or every one when none is found, is unusable. */
  lemma {:induction false} TextStartLargest(s: string, lo: nat, hi: nat)
    requires lo <= hi
    ensures TextStart(s, lo, hi).Some? ==>
      forall p :: TextStart(s, lo, hi).value < p <= hi ==> p >= |s| || IsLineTerminator(s[p])
    ensures TextStart(s, lo, hi).None? ==> forall p :: lo <= p <= hi ==> p >= |s| || IsLineTerminator(s[p])
    decreases hi - lo
  {
    if !(hi < |s| && !IsLineTerminator(s[hi])) && hi != lo {
      TextStartLargest(s, lo, hi - 1);
    }
  }

  /**
   * The match of rule 3 at `i`. The digits are the whole digit run (a shorter run would be followed
   * by a digit, not by `.`); the whitespace run is as long as `(.+)$` still allows; the text runs to
   * the end of its line.
   */
  function NumberedMatchAt(s: string, i: nat): (r: Option<NumberedMatch>)
    ensures r.Some? ==>
      i < r.value.digitsEnd && r.value.digitsEnd + 2 <= r.value.textStart < r.value.lineEnd <= |s|
  {
    if !(i < |s| && LineStartAt(s, i)) then None
    else
      var d := RunEnd(s, i, IsDigit);
      if d == i || d == |s| || s[d] != '.' then None
      else
        var w := RunEnd(s, d + 1, IsWhitespace);
        if w == d + 1 then None
        else match TextStart(s, d + 2, w)
          case None => None
          case Some(p) => Some(NumberedMatch(d, p, RunEnd(s, p, NotLineTerminator)))
  }

  /**
   * The regex `/^(\d+)\.\s+(.+)$/m` matches `s[i..e]` with `$1 == s[i..d]` and `$2 == s[p..e]`.
   */
  ghost predicate IsNumberedMatch(s: string, i: nat, d: nat, p: nat, e: nat) {
    && LineStartAt(s, i) && i < d && d < |s| && s[d] == '.' && d + 1 < p && p < e <= |s|
    && (forall k :: i <= k < d ==> IsDigit(s[k]))
    && (forall k :: d + 1 <= k < p ==> IsWhitespace(s[k]))
    && (forall k :: p <= k < e ==> !IsLineTerminator(s[k]))
    && (e == |s| || IsLineTerminator(s[e]))
  }

  /** What `NumberedMatchAt` returns is a match the regex accepts. */
  lemma NumberedMatchAtSound(s: string, i: nat)
    ensures NumberedMatchAt(s, i).Some? ==>
      var m := NumberedMatchAt(s, i).value;
      IsNumberedMatch(s, i, m.digitsEnd, m.textStart, m.lineEnd)
  {
    if i < |s| && LineStartAt(s, i) {
      var d := RunEnd(s, i, IsDigit);
      RunEndCovers(s, i, IsDigit);
      if d != i && d < |s| && s[d] == '.' {
        var w := RunEnd(s, d + 1, IsWhitespace);
        RunEndCovers(s, d + 1, IsWhitespace);
        if w != d + 1 {
          var t := TextStart(s, d + 2, w);
          if t.Some? {
            RunEndCovers(s, t.value, NotLineTerminator);
          }
        }
      }
    }
  }

  /**
   * Whenever the regex matches at `i`, the matcher finds the same digits, a text start no earlier,
   * and, when the text starts agree, the same line end.
   */
  lemma NumberedMatchAtComplete(s: string, i: nat, d: nat, p: nat, e: nat)
    requires IsNumberedMatch(s, i, d, p, e)
    ensures NumberedMatchAt(s, i).Some?
    ensures var m := NumberedMatchAt(s, i).value;
      d == m.digitsEnd && p <= m.textStart && (p == m.textStart ==> e == m.lineEnd)
  {
    var d' := RunEnd(s, i, IsDigit);
    RunEndCovers(s, i, IsDigit);
    assert !IsDigit(s[d]);
    var w := RunEnd(s, d + 1, IsWhitespace);
    assert forall k :: d + 1 <= k < p ==> IsWhitespace(s[k]);
    TextStartLargest(s, d + 2, w);
    var t := TextStart(s, d + 2, w);
    assert d + 2 <= p <= w && p < |s| && !IsLineTerminator(s[p]);
    if t.value == p {
      var e' := RunEnd(s, p, NotLineTerminator);
      RunEndCovers(s, p, NotLineTerminator);
      assert e == |s| || !NotLineTerminator(s[e]);
    }
  }

  /**
   * The matcher finds a match exactly when the regex has one at `i`, and the one it finds is the one
   * the backtracking engine reports first: the same digits, the longest whitespace run, and the text
   * to the end of the line.
   */
  lemma NumberedMatchAtCorrect(s: string, i: nat, d: nat, p: nat, e: nat)
    ensures NumberedMatchAt(s, i).Some? ==>
      var m := NumberedMatchAt(s, i).value;
      IsNumberedMatch(s, i, m.digitsEnd, m.textStart, m.lineEnd)
    ensures IsNumberedMatch(s, i, d, p, e) ==>
      && NumberedMatchAt(s, i).Some?
      && var m := NumberedMatchAt(s, i).value;
      && d == m.digitsEnd && p <= m.textStart && (p == m.textStart ==> e == m.lineEnd)
  {
    NumberedMatchAtSound(s, i);
    if IsNumberedMatch(s, i, d, p, e) {
      NumberedMatchAtComplete(s, i, d, p, e);
    }
  }

  /** Rule 3's replacement text. */
  function PromptItem(number: string, text: string): string {
    "<div class=\"" + PromptItemMarker + "\"><span class=\"prompt-number\">" + number
    + ".</span><span class=\"prompt-text\">" + text + "</span></div>"
  }

  /** The global replacement of rule 3 over `s`, from position `i` on. */
  function NumberedScan(s: string, i: nat): string
    decreases |s| - i
  {
    if i >= |s| then []
    else match NumberedMatchAt(s, i)
      case Some(m) => PromptItem(s[i..m.digitsEnd], s[m.textStart..m.lineEnd]) + NumberedScan(s, m.lineEnd)
      case None => [s[i]] + NumberedScan(s, i + 1)
  }

  // ---------------------------------------------------------------------------------------------
  // rule 5: inline code

  /**
   * The match of `` /`([^`]+)`/g `` at `i`: the greedy class runs to the next backtick, which must
   * exist and must not be the very next character.
   */
  function InlineCodeMatchAt(s: string, i: nat): (r: Option<nat>)
    ensures r.Some? ==> i + 3 <= r.value <= |s|
  {
    if i < |s| && s[i] == '`' then
      var j := RunEnd(s, i + 1, NotBacktick);
      if i + 1 < j < |s| then Some(j + 1) else None
    else None
  }

  /** The regex `` `([^`]+)` `` matches `s[i..e]`. */
  ghost predicate IsInlineCodeMatch(s: string, i: nat, e: nat) {
    i + 3 <= e <= |s| && s[i] == '`' && s[e - 1] == '`' && forall k :: i < k < e - 1 ==> s[k] != '`'
  }

  /** The regex has at most one match at `i`, and the matcher returns exactly it. */
  lemma InlineCodeMatchAtCorrect(s: string, i: nat, e: nat)
    ensures InlineCodeMatchAt(s, i) == Some(e) <==> IsInlineCodeMatch(s, i, e)
  {
    if i < |s| && s[i] == '`' {
      RunEndCovers(s, i + 1, NotBacktick);
    }
    if IsInlineCodeMatch(s, i, e) {
      var j := RunEnd(s, i + 1, NotBacktick);
      assert !NotBacktick(s[e - 1]);
    }
  }

  /** The global replacement of rule 5 over `s`, from position `i` on. */
  function InlineCodeScan(s: string, i: nat): string
    decreases |s| - i
  {
    if i >= |s| then []
    else match InlineCodeMatchAt(s, i)
      case Some(e) => "<code>" + s[i + 1..e - 1] + "</code>" + InlineCodeScan(s, e)
      case None => [s[i]] + InlineCodeScan(s, i + 1)
  }

  // ---------------------------------------------------------------------------------------------
  // rule 6: line breaks

  /** `.replace(/\n/g, '<br>')`: only line feeds; a carriage return stays. */
  function NewlinesToBr(s: string): (r: string)
    ensures '\n' !in r
    ensures '\n' !in s ==> r == s
  {
    if |s| == 0 then []
    else (if s[0] == '\n' then "<br>" else [s[0]]) + NewlinesToBr(s[1..])
  }

  // ---------------------------------------------------------------------------------------------
  // the pipeline

  /** The class name of a prompt item, which is also what the wrapper test looks for. */
  const PromptItemMarker := "prompt-item"
  const ContainerOpen := "<div class=\"prompts-container\">"
  const ContainerClose := "</div>"

  /** The six rewrites, in the order the source chains them. */
  function Rewrite(content: string): string {
    var bold := LazyScan(content, 0, Bold);
    var italic := LazyScan(bold, 0, Italic);
    var numbered := NumberedScan(italic, 0);
    var fenced := LazyScan(numbered, 0, CodeBlock);
    var inline := InlineCodeScan(fenced, 0);
    NewlinesToBr(inline)
  }

  /** `formatPromptResponse`: the rewrites, wrapped in the container when a prompt item appears. */
  function Format(content: string): (r: string)
    ensures '\n' !in r
  {
    var rewritten := Rewrite(content);
    if Contains(rewritten, PromptItemMarker) then ContainerOpen + rewritten + ContainerClose
    else rewritten
  }
}

=== FILE: formatter_properties.dfy ===
/**
 * What `formatPromptResponse` does to whole inputs: text without markers only has its line feeds
 * turned into `<br>`, the output never holds a line feed, the container appears exactly when a
 * prompt item was produced, and the shapes the widget is built for (a bold phrase, a numbered list,
 * a fenced block) come out as intended, including the ones where rule order shows through.
 */
module FormatterProperties {
  import opened Results
  import opened JsText
  import opened Formatter

  // ---------------------------------------------------------------------------------------------
  // each rewrite leaves alone the text it cannot match

  /** Without the first character of its delimiter, a lazy rule copies the text unchanged. */
  lemma {:induction false} LazyScanWithoutDelimiter(s: string, i: nat, rule: LazyRule)
    requires ValidRule(rule) && i <= |s| && rule.delim[0] !in s
    ensures LazyScan(s, i, rule) == s[i..]
    decreases |s| - i
  {
    if i < |s| {
      assert s[i] in s;
      NotOccursAt(s, rule.delim, i);
      LazyScanWithoutDelimiter(s, i + 1, rule);
    }
  }

  /** Without a backtick, rule 5 copies the text unchanged. */
  lemma {:induction false} InlineCodeScanWithoutBacktick(s: string, i: nat)
    requires i <= |s| && '`' !in s
    ensures InlineCodeScan(s, i) == s[i..]
    decreases |s| - i
  {
    if i < |s| {
      assert s[i] in s;
      InlineCodeScanWithoutBacktick(s, i + 1);
    }
  }

  /** Some line of `s` has the shape rule 3 rewrites. */
  ghost predicate HasNumberedLine(s: string) {
    exists i, d, p, e :: IsNumberedMatch(s, i, d, p, e)
  }

  /** Without a numbered line, rule 3 copies the text unchanged. */
  lemma {:induction false} NumberedScanWithoutNumberedLine(s: string, i: nat)
    requires i <= |s| && !HasNumberedLine(s)
    ensures NumberedScan(s, i) == s[i..]
    decreases |s| - i
  {
    if i < |s| {
      NumberedMatchAtCorrect(s, i, 0, 0, 0);
      assert NumberedMatchAt(s, i).None?;
      NumberedScanWithoutNumberedLine(s, i + 1);
    }
  }

  /** A single line that does not start with a digit has no numbered line. */
  lemma SingleLineIsNotNumbered(s: string)
    requires SingleLine(s)
    requires |s| == 0 || !IsDigit(s[0])
    ensures !HasNumberedLine(s)
  {
  }

  /** Rule 3 cannot match away from a line start, nor where the line does not start with a digit. */
  lemma NoNumberedMatchAt(s: string, i: nat)
    requires i < |s| && (!LineStartAt(s, i) || !IsDigit(s[i]))
    ensures NumberedMatchAt(s, i).None?
  {
  }

  /**
   * A line `N. text` (digits, a dot, one whitespace character, then text that starts with a
   * non-whitespace character and runs to the end of the line) is matched by rule 3 as a whole, with
   * the digits as label and the text as body.
   */
  lemma NumberedLineMatches(s: string, i: nat, d: nat, e: nat)
    requires LineStartAt(s, i) && i < d && d + 2 < e <= |s|
    requires AllDigits(s[i..d])
    requires s[d] == '.' && IsWhitespace(s[d + 1]) && !IsWhitespace(s[d + 2])
    requires SingleLine(s[d + 2..e])
    requires e == |s| || IsLineTerminator(s[e])
    ensures NumberedMatchAt(s, i) == Some(NumberedMatch(d, d + 2, e))
  {
    assert forall k :: i <= k < d ==> s[k] == s[i..d][k - i];
    assert forall k :: d + 2 <= k < e ==> s[k] == s[d + 2..e][k - d - 2];
    assert IsNumberedMatch(s, i, d, d + 2, e);
    NumberedMatchAtCorrect(s, i, d, d + 2, e);
  }

  /**
   * A delimited span on its own, `D x D` with no delimiter character and only body characters in
   * `x`, is rewritten as `open x close`.
   */
  lemma LazyScanSingleSpan(rule: LazyRule, x: string)
    requires ValidRule(rule) && rule.delim[0] !in x && (rule.dotAll || SingleLine(x))
    ensures LazyScan(rule.delim + x + rule.delim, 0, rule) == rule.open + x + rule.close
  {
    var n := |rule.delim|;
    var s := rule.delim + x + rule.delim;
    assert s[..n] == rule.delim;
    assert s[n + |x|..] == rule.delim;
    assert s[n..n + |x|] == x;
    assert forall k :: n <= k < n + |x| ==> s[k] == x[k - n] && x[k - n] in x;
    assert IsLazyClose(s, n, rule, n + |x|);
    assert IsLazyMatch(s, 0, rule, |s|);
    forall j: nat | n <= j < n + |x|
      ensures !OccursAt(s, rule.delim, j)
    {
      NotOccursAt(s, rule.delim, j);
    }
    assert forall e': nat :: e' < |s| ==> !IsLazyMatch(s, 0, rule, e');
    LazyMatchAtCorrect(s, 0, rule, |s|);
    assert LazyScan(s, |s|, rule) == [];
  }

  // ---------------------------------------------------------------------------------------------
  // rule 6

  /** Replacing line feeds works piece by piece. */
  lemma {:induction false} NewlinesToBrConcat(a: string, b: string)
    ensures NewlinesToBr(a + b) == NewlinesToBr(a) + NewlinesToBr(b)
    decreases |a|
  {
    if |a| > 0 {
      var c := a + b;
      var head := if a[0] == '\n' then "<br>" else [a[0]];
      assert c[0] == a[0] && c[1..] == a[1..] + b;
      assert NewlinesToBr(c) == head + NewlinesToBr(c[1..]);
      assert NewlinesToBr(a) == head + NewlinesToBr(a[1..]);
      NewlinesToBrConcat(a[1..], b);
    } else {
      assert a + b == b;
    }
  }

  /**
   * Replacing line feeds neither creates nor destroys an occurrence of a pattern that has no line
   * feed, no angle bracket, and is not found inside `<br>` itself.
   */
  lemma {:induction false} NewlinesToBrContains(s: string, pat: string)
    requires |pat| > 0 && '\n' !in pat && '<' !in pat && '>' !in pat && !Contains("<br>", pat)
    ensures Contains(NewlinesToBr(s), pat) <==> Contains(s, pat)
    decreases |s|
  {
    if '\n' in s {
      var i :| 0 <= i < |s| && s[i] == '\n';
      var a, b := s[..i], s[i + 1..];
      assert s == a + ("\n" + b);
      NewlinesToBrConcat(a, "\n" + b);
      NewlinesToBrConcat("\n", b);
      assert NewlinesToBr("\n") == "<br>";
      NewlinesToBrContains(a, pat);
      NewlinesToBrContains(b, pat);
      ContainsConcat(NewlinesToBr(a), "<br>" + NewlinesToBr(b), pat);
      ContainsConcat("<br>", NewlinesToBr(b), pat);
      ContainsConcat(a, "\n" + b, pat);
      ContainsConcat("\n", b, pat);
      SingleCharDoesNotContain('\n', pat);
    }
  }

  // ---------------------------------------------------------------------------------------------
  // the marker and the container

  /** Turning line feeds into `<br>` neither adds nor removes a prompt item marker. */
  lemma NewlinesToBrKeepsMarker(s: string)
    ensures Contains(NewlinesToBr(s), PromptItemMarker) <==> Contains(s, PromptItemMarker)
  {
    MarkerNotInBreak();
    NewlinesToBrContains(s, PromptItemMarker);
  }

  /** The marker is not found in `<br>`. */
  lemma MarkerNotInBreak()
    ensures !Contains("<br>", PromptItemMarker)
  {
    ShortDoesNotContain("<br>", PromptItemMarker);
  }

  /** The container's own tags do not hold the marker, although its class name starts like it. */
  lemma MarkerNotInContainerTags()
    ensures !Contains(ContainerOpen, PromptItemMarker)
    ensures !Contains(ContainerClose, PromptItemMarker)
  {
    var m := PromptItemMarker;
    // cut the opening tag after characters that are not in the marker, into pieces shorter than it
    var head, tail := "<div class=\"", "prompts-container\">";
    assert ContainerOpen == head + tail;
    MarkerNotInContainerHead();
    MarkerNotInContainerTail();
    ContainsConcat(head, tail, m);
    ShortDoesNotContain(ContainerClose, m);
  }

  /** The start of the opening container tag does not hold the marker. */
  lemma MarkerNotInContainerHead()
    ensures !Contains("<div class=\"", PromptItemMarker)
  {
    var m := PromptItemMarker;
    var p1, p2 := "<div ", "class=\"";
    assert "<div class=\"" == p1 + p2;
    ShortDoesNotContain(p1, m);
    ShortDoesNotContain(p2, m);
    ContainsConcat(p1, p2, m);
  }

  /** The class name and the end of the opening container tag do not hold the marker. */
  lemma MarkerNotInContainerTail()
    ensures !Contains("prompts-container\">", PromptItemMarker)
  {
    var m := PromptItemMarker;
    var p3, p4, p5 := "prompts", "-c", "ontainer\">";
    assert "prompts-container\">" == (p3 + p4) + p5;
    ShortDoesNotContain(p3, m);
    ShortDoesNotContain(p4, m);
    ShortDoesNotContain(p5, m);
    ContainsConcat(p3, p4, m);
    ContainsConcat(p3 + p4, p5, m);
  }

  /** Every prompt item carries the marker. */
  lemma PromptItemHasMarker(number: string, text: string)
    ensures Contains(PromptItem(number, text), PromptItemMarker)
  {
    var item := PromptItem(number, text);
    var head := "<div class=\"";
    assert item == head + PromptItemMarker + (item[|head| + |PromptItemMarker|..]);
    assert OccursAt(PromptItemMarker, PromptItemMarker, 0);
    ContainsInfix(head, PromptItemMarker, item[|head| + |PromptItemMarker|..], PromptItemMarker);
  }

  /**
   * The output is wrapped in the prompts container exactly when the rewritten text holds the
   * marker, and is the rewritten text itself exactly when it does not. Wrapping adds no marker.
   */
  lemma FormatWrapping(content: string)
    ensures Contains(Rewrite(content), PromptItemMarker) <==>
      Format(content) == ContainerOpen + Rewrite(content) + ContainerClose
    ensures !Contains(Rewrite(content), PromptItemMarker) <==> Format(content) == Rewrite(content)
    ensures Contains(Format(content), PromptItemMarker) <==> Contains(Rewrite(content), PromptItemMarker)
  {
    var r := Rewrite(content);
    MarkerNotInContainerTags();
    assert ContainerOpen[|ContainerOpen| - 1] == '>';
    assert ContainerClose[0] == '<';
    ContainsConcat(ContainerOpen, r, PromptItemMarker);
    ContainsConcat(ContainerOpen + r, ContainerClose, PromptItemMarker);
  }

  // ---------------------------------------------------------------------------------------------
  // whole inputs

  /** Without the marker in the rewritten text, the output is the rewritten text. */
  lemma FormatUnwrapped(content: string, rewritten: string)
    requires Rewrite(content) == rewritten && !Contains(rewritten, PromptItemMarker)
    ensures Format(content) == rewritten
  {
  }

  /** With the marker in the rewritten text, the output is the rewritten text in the container. */
  lemma FormatWrapped(content: string, rewritten: string)
    requires Rewrite(content) == rewritten && Contains(rewritten, PromptItemMarker)
    ensures Format(content) == ContainerOpen + rewritten + ContainerClose
  {
  }

  /** `Rewrite` is the six scans in their order, whatever the intermediate results are. */
  lemma RewriteByStages(content: string, bold: string, italic: string, numbered: string, fenced: string, inline: string)
    requires LazyScan(content, 0, Bold) == bold
    requires LazyScan(bold, 0, Italic) == italic
    requires NumberedScan(italic, 0) == numbered
    requires LazyScan(numbered, 0, CodeBlock) == fenced
    requires InlineCodeScan(fenced, 0) == inline
    ensures Rewrite(content) == NewlinesToBr(inline)
  {
  }

  /**
   * When rules 1 and 2 already give a quiet single line without the marker, that line is the
   * output.
   */
  lemma FormatAfterQuietItalic(content: string, bold: string, italic: string)
    requires LazyScan(content, 0, Bold) == bold && LazyScan(bold, 0, Italic) == italic
    requires NumberedScan(italic, 0) == italic && LazyScan(italic, 0, CodeBlock) == italic
    requires InlineCodeScan(italic, 0) == italic && NewlinesToBr(italic) == italic
    requires !Contains(italic, PromptItemMarker)
    ensures Format(content) == italic
  {
    RewriteByStages(content, bold, italic, italic, italic, italic);
    FormatUnwrapped(content, italic);
  }

  /** Every rewrite from the second on leaves alone text with no asterisk, backtick or line break. */
  lemma QuietLineSurvives(t: string)
    requires '*' !in t && '`' !in t && SingleLine(t) && (|t| == 0 || !IsDigit(t[0]))
    ensures LazyScan(t, 0, Italic) == t
    ensures NumberedScan(t, 0) == t
    ensures LazyScan(t, 0, CodeBlock) == t
    ensures InlineCodeScan(t, 0) == t
    ensures NewlinesToBr(t) == t
  {
    assert t[0..] == t;
    LazyScanWithoutDelimiter(t, 0, Italic);
    SingleLineIsNotNumbered(t);
    NumberedScanWithoutNumberedLine(t, 0);
    LazyScanWithoutDelimiter(t, 0, CodeBlock);
    InlineCodeScanWithoutBacktick(t, 0);
  }

  /** Text without an asterisk, a backtick or a numbered line passes the first five rewrites unchanged. */
  lemma RewritePlainText(content: string)
    requires '*' !in content && '`' !in content && !HasNumberedLine(content)
    ensures Rewrite(content) == NewlinesToBr(content)
  {
    assert content[0..] == content;
    LazyScanWithoutDelimiter(content, 0, Bold);
    LazyScanWithoutDelimiter(content, 0, Italic);
    NumberedScanWithoutNumberedLine(content, 0);
    LazyScanWithoutDelimiter(content, 0, CodeBlock);
    InlineCodeScanWithoutBacktick(content, 0);
    RewriteByStages(content, content, content, content, content, content);
  }

  /**
   * Text without an asterisk, a backtick, a numbered line or the marker comes out with each line
   * feed turned into `<br>` and nothing else changed.
   */
  lemma FormatPlainText(content: string)
    requires '*' !in content && '`' !in content
    requires !HasNumberedLine(content) && !Contains(content, PromptItemMarker)
    ensures Format(content) == NewlinesToBr(content)
  {
    RewritePlainText(content);
    NewlinesToBrKeepsMarker(content);
    FormatUnwrapped(content, NewlinesToBr(content));
  }

  /** The empty reply formats to the empty string. */
  lemma FormatEmpty()
    ensures Format("") == ""
  {
    ShortDoesNotContain("", PromptItemMarker);
    FormatPlainText("");
  }

  /** Wrapping a quiet phrase in strong tags keeps it quiet and free of the marker. */
  lemma StrongTagsQuiet(x: string)
    requires '*' !in x && '`' !in x && SingleLine(x) && !Contains(x, PromptItemMarker)
    ensures var t := "<strong>" + x + "</strong>";
      '*' !in t && '`' !in t && SingleLine(t) && !IsDigit(t[0]) && !Contains(t, PromptItemMarker)
  {
    ShortDoesNotContain("<strong>", PromptItemMarker);
    ShortDoesNotContain("</strong>", PromptItemMarker);
    ContainsConcat("<strong>", x, PromptItemMarker);
    ContainsConcat("<strong>" + x, "</strong>", PromptItemMarker);
  }

  /**
   * A bold phrase on its own, `**x**`, becomes `<strong>x</strong>` when `x` holds no asterisk, no
   * backtick, no line terminator (`.` does not cross one) and not the marker: the strong tags hold
   * no asterisk for rule 2 to find.
   */
  lemma FormatBold(x: string)
    requires '*' !in x && '`' !in x && SingleLine(x) && !Contains(x, PromptItemMarker)
    ensures Format("**" + x + "**") == "<strong>" + x + "</strong>"
  {
    LazyScanSingleSpan(Bold, x);
    var t := "<strong>" + x + "</strong>";
    StrongTagsQuiet(x);
    QuietLineSurvives(t);
    RewriteByStages("**" + x + "**", t, t, t, t, t);
    FormatUnwrapped("**" + x + "**", t);
  }

  /** Rule 1 leaves `**` alone: one pair of asterisks cannot both open and close. */
  lemma BoldSkipsLonePair()
    ensures LazyScan("**", 0, Bold) == "**"
  {
    var s := "**";
    assert LazyMatchAt(s, 0, Bold).None? by {
      assert LazyClose(s, 2, Bold).None?;
    }
    assert !OccursAt(s, "**", 1);
    assert LazyScan(s, 2, Bold) == [];
  }

  /** Rule 2 turns `**` into an empty emphasis. */
  lemma ItalicEmptySpan()
    ensures LazyScan("**", 0, Italic) == "<em></em>"
  {
    LazyScanSingleSpan(Italic, "");
    assert Italic.delim + "" + Italic.delim == "**";
    assert Italic.open + "" + Italic.close == "<em></em>";
  }

  /** The later rewrites leave an empty emphasis alone, and it holds no marker. */
  lemma EmptyEmphasisQuiet()
    ensures var t := "<em></em>";
      && NumberedScan(t, 0) == t && LazyScan(t, 0, CodeBlock) == t && InlineCodeScan(t, 0) == t
      && NewlinesToBr(t) == t && !Contains(t, PromptItemMarker)
  {
    QuietLineSurvives("<em></em>");
    ShortDoesNotContain("<em></em>", PromptItemMarker);
  }

  /**
   * `**` alone is not bold (rule 1 needs four asterisks) but an empty italic span: the lazy body of
   * rule 2 may be empty.
   */
  lemma FormatDoubleAsterisk()
    ensures Format("**") == "<em></em>"
  {
    BoldSkipsLonePair();
    ItalicEmptySpan();
    EmptyEmphasisQuiet();
    FormatAfterQuietItalic("**", "**", "<em></em>");
  }

  // ---------------------------------------------------------------------------------------------
  // numbered lists

  /**
   * The text of a list line that formats cleanly: it starts with a character other than whitespace
   * (so `\s+` stops right before it), stays on its line, and gives rules 1, 2, 4 and 5 nothing to
   * match.
   */
  predicate PlainLine(t: string) {
    |t| > 0 && !IsWhitespace(t[0]) && SingleLine(t) && '*' !in t && '`' !in t
  }

  /** A digit run holds no asterisk, backtick or line terminator. */
  lemma DigitsArePlain(n: string)
    requires AllDigits(n)
    ensures '*' !in n && '`' !in n && SingleLine(n)
  {
  }

  /**
   * A numbered line `n.` + `w` + `t`, with `w` any single whitespace character, that starts a line
   * and ends one is replaced by rule 3 with one prompt item labelled `n` holding `t`, and the scan
   * resumes at the end of the line. `w` may itself be a line feed: `\s` crosses lines.
   */
  lemma NumberedLineScan(s: string, i: nat, n: string, w: char, t: string, e: nat)
    requires |n| > 0 && AllDigits(n) && IsWhitespace(w) && PlainLine(t)
    requires LineStartAt(s, i) && e == i + |n| + 2 + |t| && e <= |s|
    requires s[i..e] == n + "." + [w] + t
    requires e == |s| || IsLineTerminator(s[e])
    ensures NumberedScan(s, i) == PromptItem(n, t) + NumberedScan(s, e)
  {
    NumberedLineLayout(s, i, i + |n|, e, n, w, t);
    NumberedLineMatches(s, i, i + |n|, e);
    NumberedScanAtMatch(s, i, i + |n|, e);
  }

  /** Where the label, the dot, the whitespace and the text of a numbered line sit in `s`. */
  lemma NumberedLineLayout(s: string, i: nat, d: nat, e: nat, n: string, w: char, t: string)
    requires |n| > 0 && AllDigits(n) && IsWhitespace(w) && PlainLine(t)
    requires d == i + |n| && e == d + 2 + |t| && e <= |s|
    requires s[i..e] == n + "." + [w] + t
    ensures s[i..d] == n && AllDigits(s[i..d])
    ensures s[d] == '.' && IsWhitespace(s[d + 1]) && !IsWhitespace(s[d + 2])
    ensures s[d + 2..e] == t && SingleLine(s[d + 2..e])
  {
    var line := n + "." + [w] + t;
    assert s[i..d] == line[..|n|];
    assert s[d] == line[|n|];
    assert s[d + 1] == line[|n| + 1];
    assert s[d + 2..e] == line[|n| + 2..];
  }

  /** Where rule 3 matches, the scan emits the prompt item and resumes at the end of the line. */
  lemma NumberedScanAtMatch(s: string, i: nat, d: nat, e: nat)
    requires i < d && d + 2 < e <= |s|
    requires NumberedMatchAt(s, i) == Some(NumberedMatch(d, d + 2, e))
    ensures NumberedScan(s, i) == PromptItem(s[i..d], s[d + 2..e]) + NumberedScan(s, e)
  {
  }

  /** A list line `n. t` is the dot-and-space case of the general numbered line. */
  lemma SpaceSeparated(n: string, t: string)
    ensures n + ". " + t == n + "." + [' '] + t
  {
  }

  /** Rule 3 copies a line feed: no numbered line starts with one. */
  lemma NumberedScanLineFeed(s: string, j: nat)
    requires j < |s| && s[j] == '\n'
    ensures NumberedScan(s, j) == "\n" + NumberedScan(s, j + 1)
  {
    NoNumberedMatchAt(s, j);
  }

  /**
   * Rule 3 over a two-line list `n1. a` / `n2. b`: two prompt items in order around the untouched
   * line feed.
   */
  lemma NumberedScanTwoLines(n1: string, a: string, n2: string, b: string)
    requires |n1| > 0 && AllDigits(n1) && PlainLine(a)
    requires |n2| > 0 && AllDigits(n2) && PlainLine(b)
    ensures NumberedScan(n1 + ". " + a + "\n" + n2 + ". " + b, 0)
         == PromptItem(n1, a) + "\n" + PromptItem(n2, b)
  {
    var first, second := n1 + ". " + a, n2 + ". " + b;
    var s := first + "\n" + second;
    assert s == n1 + ". " + a + "\n" + n2 + ". " + b;
    var j := |first|;
    assert s[0..j] == first;
    assert s[j] == '\n';
    assert s[j + 1..j + 1 + |second|] == second && j + 1 + |second| == |s|;
    NumberedScanLinesAt(s, j, n1, a, n2, b);
  }

  /** The layout of a two-line list `n1. a` / `n2. b` inside `s`, with the line feed at `j`. */
  predicate TwoLineLayout(s: string, j: nat, n1: string, a: string, n2: string, b: string) {
    && |n1| > 0 && AllDigits(n1) && PlainLine(a) && |n2| > 0 && AllDigits(n2) && PlainLine(b)
    && j == |n1| + 2 + |a| && j + 1 + |n2| + 2 + |b| == |s|
    && s[0..j] == n1 + ". " + a && s[j] == '\n' && s[j + 1..|s|] == n2 + ". " + b
  }

  /** Rule 3 from the start of the second line: its prompt item. */
  lemma SecondLineScan(s: string, j: nat, n1: string, a: string, n2: string, b: string)
    requires TwoLineLayout(s, j, n1, a, n2, b)
    ensures NumberedScan(s, j + 1) == PromptItem(n2, b)
  {
    assert j + 1 + |n2| + 2 + |b| == |s| && s[j + 1..|s|] == n2 + ". " + b;
    assert LineStartAt(s, j + 1);
    SpaceSeparated(n2, b);
    NumberedLineScan(s, j + 1, n2, ' ', b, |s|);
    assert NumberedScan(s, |s|) == [];
  }

  /** Rule 3 from the line feed: the line feed, then the second prompt item. */
  lemma LineFeedScan(s: string, j: nat, n1: string, a: string, n2: string, b: string)
    requires TwoLineLayout(s, j, n1, a, n2, b)
    ensures NumberedScan(s, j) == "\n" + PromptItem(n2, b)
  {
    SecondLineScan(s, j, n1, a, n2, b);
    NumberedScanLineFeed(s, j);
  }

  /** `NumberedScanTwoLines` over a string given only by its layout. */
  lemma NumberedScanLinesAt(s: string, j: nat, n1: string, a: string, n2: string, b: string)
    requires TwoLineLayout(s, j, n1, a, n2, b)
    ensures NumberedScan(s, 0) == PromptItem(n1, a) + "\n" + PromptItem(n2, b)
  {
    LineFeedScan(s, j, n1, a, n2, b);
    SpaceSeparated(n1, a);
    NumberedLineScan(s, 0, n1, ' ', a, j);
  }

  /** The opening parts of a prompt item hold no backtick. */
  lemma ItemHeadHasNoBacktick()
    ensures '`' !in "<div class=\"" && '`' !in PromptItemMarker && '`' !in "\"><span class=\"prompt-number\">"
  {
  }

  /** The closing parts of a prompt item hold no backtick. */
  lemma ItemTailHasNoBacktick()
    ensures '`' !in ".</span><span class=\"prompt-text\">" && '`' !in "</span></div>"
  {
  }

  /** The opening parts of a prompt item hold no line feed. */
  lemma ItemHeadHasNoLineFeed()
    ensures '\n' !in "<div class=\"" && '\n' !in PromptItemMarker && '\n' !in "\"><span class=\"prompt-number\">"
  {
  }

  /** The closing parts of a prompt item hold no line feed. */
  lemma ItemTailHasNoLineFeed()
    ensures '\n' !in ".</span><span class=\"prompt-text\">" && '\n' !in "</span></div>"
  {
  }

  /** A prompt item built from a label and a text without backticks or line feeds has none either. */
  lemma PromptItemPlain(n: string, t: string)
    requires '`' !in n && '`' !in t && '\n' !in n && '\n' !in t
    ensures '`' !in PromptItem(n, t) && '\n' !in PromptItem(n, t)
  {
    ItemHeadHasNoBacktick();
    ItemTailHasNoBacktick();
    ItemHeadHasNoLineFeed();
    ItemTailHasNoLineFeed();
  }

  /** Rule 6 on one character: a line feed becomes `<br>`, any other character stays. */
  lemma NewlinesToBrChar(c: char)
    ensures NewlinesToBr([c]) == (if c == '\n' then "<br>" else [c])
  {
    assert NewlinesToBr([c]) == (if c == '\n' then "<br>" else [c]) + NewlinesToBr([]);
  }

  /** Rule 6 turns a lone line feed into `<br>`. */
  lemma LineFeedToBreak()
    ensures NewlinesToBr("\n") == "<br>"
  {
    assert NewlinesToBr("\n") == "<br>" + NewlinesToBr([]);
  }

  /** Rule 6 on two prompt items around a line feed. */
  lemma BreakBetweenItems(p1: string, p2: string)
    requires '\n' !in p1 && '\n' !in p2
    ensures NewlinesToBr(p1 + "\n" + p2) == p1 + "<br>" + p2
  {
    NewlinesToBrConcat(p1 + "\n", p2);
    NewlinesToBrConcat(p1, "\n");
    LineFeedToBreak();
  }

  /** Rules 1 and 2 leave a list of plain lines alone: it has no asterisk. */
  lemma TwoLinesHaveNoEmphasis(n1: string, a: string, n2: string, b: string)
    requires AllDigits(n1) && PlainLine(a) && AllDigits(n2) && PlainLine(b)
    ensures var s := n1 + ". " + a + "\n" + n2 + ". " + b;
      LazyScan(s, 0, Bold) == s && LazyScan(s, 0, Italic) == s
  {
    var s := n1 + ". " + a + "\n" + n2 + ". " + b;
    DigitsArePlain(n1);
    DigitsArePlain(n2);
    assert '*' !in s;
    assert s[0..] == s;
    LazyScanWithoutDelimiter(s, 0, Bold);
    LazyScanWithoutDelimiter(s, 0, Italic);
  }

  /** The prompt item of a plain list line holds no backtick or line feed, and holds the marker. */
  lemma ListItemPlain(n: string, t: string)
    requires AllDigits(n) && PlainLine(t)
    ensures '`' !in PromptItem(n, t) && '\n' !in PromptItem(n, t)
    ensures Contains(PromptItem(n, t), PromptItemMarker)
  {
    DigitsArePlain(n);
    PromptItemPlain(n, t);
    PromptItemHasMarker(n, t);
  }

  /** Rules 4 and 5 leave text without a backtick alone. */
  lemma CodeRulesSkip(u: string)
    requires '`' !in u
    ensures LazyScan(u, 0, CodeBlock) == u && InlineCodeScan(u, 0) == u
  {
    assert u[0..] == u;
    LazyScanWithoutDelimiter(u, 0, CodeBlock);
    InlineCodeScanWithoutBacktick(u, 0);
  }

  /** What holds the marker still holds it with anything appended. */
  lemma MarkerSurvivesAppend(p: string, rest: string)
    requires Contains(p, PromptItemMarker)
    ensures Contains(p + rest, PromptItemMarker)
  {
    ContainsInfix([], p, rest, PromptItemMarker);
    assert [] + p + rest == p + rest;
  }

  /** Two prompt items around a line feed hold no backtick when neither item does. */
  lemma NoBacktickAroundLineFeed(p1: string, p2: string)
    requires '`' !in p1 && '`' !in p2
    ensures '`' !in p1 + "\n" + p2
  {
  }

  /** The first prompt item's marker survives rule 6. */
  lemma MarkerAfterBreak(p1: string, p2: string)
    requires Contains(p1, PromptItemMarker)
    ensures Contains(p1 + "<br>" + p2, PromptItemMarker)
  {
    MarkerSurvivesAppend(p1, "<br>" + p2);
    assert p1 + ("<br>" + p2) == p1 + "<br>" + p2;
  }

  /**
   * A two-line numbered list `n1. a` / `n2. b` of plain lines becomes one container holding two
   * prompt items in order, labelled `n1` and `n2`, separated by a single `<br>`.
   */
  lemma FormatTwoNumberedLines(n1: string, a: string, n2: string, b: string)
    requires |n1| > 0 && AllDigits(n1) && PlainLine(a)
    requires |n2| > 0 && AllDigits(n2) && PlainLine(b)
    ensures Format(n1 + ". " + a + "\n" + n2 + ". " + b)
         == ContainerOpen + PromptItem(n1, a) + "<br>" + PromptItem(n2, b) + ContainerClose
  {
    var s := n1 + ". " + a + "\n" + n2 + ". " + b;
    var p1, p2 := PromptItem(n1, a), PromptItem(n2, b);
    var u := p1 + "\n" + p2;
    TwoLinesHaveNoEmphasis(n1, a, n2, b);
    NumberedScanTwoLines(n1, a, n2, b);
    ListItemPlain(n1, a);
    ListItemPlain(n2, b);
    NoBacktickAroundLineFeed(p1, p2);
    CodeRulesSkip(u);
    BreakBetweenItems(p1, p2);
    MarkerAfterBreak(p1, p2);
    RewriteByStages(s, s, s, u, u, u);
    FormatWrapped(s, p1 + "<br>" + p2);
    WrapRegroups(p1, "<br>", p2);
  }

  /** The container around three consecutive pieces, regrouped. */
  lemma WrapRegroups(x: string, y: string, z: string)
    ensures ContainerOpen + (x + y + z) + ContainerClose == ContainerOpen + x + y + z + ContainerClose
  {
  }

  /** The numbered list `1. first` / `2. second`: two prompt items, `1` then `2`, joined by one `<br>`. */
  lemma FormatNumberedList()
    ensures Format("1. first\n2. second")
         == ContainerOpen + PromptItem("1", "first") + "<br>" + PromptItem("2", "second") + ContainerClose
  {
    ListLinesArePlain();
    FormatTwoNumberedLines("1", "first", "2", "second");
  }

  /** The labels and texts of the example list are plain, and they make up the example. */
  lemma ListLinesArePlain()
    ensures AllDigits("1") && AllDigits("2") && PlainLine("first") && PlainLine("second")
    ensures "1" + ". " + "first" + "\n" + "2" + ". " + "second" == "1. first\n2. second"
  {
    FirstIsPlain();
    SecondIsPlain();
  }

  lemma FirstIsPlain()
    ensures PlainLine("first")
  {
  }

  lemma SecondIsPlain()
    ensures PlainLine("second")
  {
  }

  // ---------------------------------------------------------------------------------------------
  // consequences of the rule order and of `\s`

  /** Rules 1 and 2 leave text without an asterisk alone. */
  lemma EmphasisRulesSkip(s: string)
    requires '*' !in s
    ensures LazyScan(s, 0, Bold) == s && LazyScan(s, 0, Italic) == s
  {
    assert s[0..] == s;
    LazyScanWithoutDelimiter(s, 0, Bold);
    LazyScanWithoutDelimiter(s, 0, Italic);
  }

  /** A numbered line that makes up the whole input becomes its prompt item. */
  lemma OnlyLineScan(s: string, n: string, w: char, t: string)
    requires |n| > 0 && AllDigits(n) && IsWhitespace(w) && PlainLine(t)
    requires s == n + "." + [w] + t
    ensures NumberedScan(s, 0) == PromptItem(n, t)
  {
    assert s[0..|s|] == s;
    NumberedLineScan(s, 0, n, w, t, |s|);
    assert NumberedScan(s, |s|) == [];
  }

  /** A lone prompt item passes rules 4 to 6 unchanged and gets the container. */
  lemma FormatSingleItem(content: string, p: string)
    requires Rewrite(content) == NewlinesToBr(p)
    requires '`' !in p && '\n' !in p && Contains(p, PromptItemMarker)
    ensures Format(content) == ContainerOpen + p + ContainerClose
  {
    FormatWrapped(content, p);
  }

  /**
   * `\s+` crosses a line break: `n.` followed by a line feed and a plain line is still a numbered
   * item, labelled `n` and holding the next line.
   */
  lemma FormatNumberedAcrossLineBreak(n: string, t: string)
    requires |n| > 0 && AllDigits(n) && PlainLine(t)
    ensures Format(n + ".\n" + t) == ContainerOpen + PromptItem(n, t) + ContainerClose
  {
    var s := n + ".\n" + t;
    assert s == n + "." + ['\n'] + t;
    DigitsArePlain(n);
    assert '*' !in s;
    EmphasisRulesSkip(s);
    OnlyLineScan(s, n, '\n', t);
    var p := PromptItem(n, t);
    ListItemPlain(n, t);
    CodeRulesSkip(p);
    RewriteByStages(s, s, s, p, p, p);
    FormatSingleItem(s, p);
  }

  /** Rule 3 copies a character that is not a digit: no numbered line starts with it. */
  lemma NumberedScanCopiesNonDigit(s: string, k: nat)
    requires k < |s| && !IsDigit(s[k])
    ensures NumberedScan(s, k) == [s[k]] + NumberedScan(s, k + 1)
  {
    NoNumberedMatchAt(s, k);
  }

  /** Rule 3 copies a run of characters that are not digits. */
  lemma {:induction false} NumberedScanCopiesRun(s: string, i: nat, j: nat)
    requires i <= j <= |s| && forall k :: i <= k < j ==> !IsDigit(s[k])
    ensures NumberedScan(s, i) == s[i..j] + NumberedScan(s, j)
    decreases j - i
  {
    forall k | i <= k < j
      ensures NumberedScan(s, k) == [s[k]] + NumberedScan(s, k + 1)
    {
      NumberedScanCopiesNonDigit(s, k);
    }
    CopiedRun(s, i, j, (k: nat) => NumberedScan(s, k));
  }

  /** A scan that copies each character of `s[i..j]` copies the whole slice. */
  lemma {:induction false} CopiedRun(s: string, i: nat, j: nat, scan: nat -> string)
    requires i <= j <= |s| && forall k :: i <= k < j ==> scan(k) == [s[k]] + scan(k + 1)
    ensures scan(i) == s[i..j] + scan(j)
    decreases j - i
  {
    if i < j {
      CopiedRun(s, i + 1, j, scan);
      PrependSlice(s, i, j, scan(j));
    }
  }

  /** One character in front of the rest of a slice is the slice. */
  lemma PrependSlice(s: string, i: nat, j: nat, x: string)
    requires i < j <= |s|
    ensures [s[i]] + (s[i + 1..j] + x) == s[i..j] + x
  {
    assert s[i..j] == [s[i]] + s[i + 1..j];
  }

  /** An opening fence and its line feed hold no digit. */
  lemma FenceOpenHasNoDigit(s: string)
    requires |s| >= 4 && s[..4] == "```\n"
    ensures forall k :: 0 <= k < 4 ==> !IsDigit(s[k])
  {
    assert s[0] == '`' && s[1] == '`' && s[2] == '`' && s[3] == '\n';
  }

  /** Rule 3 copies an opening fence and its line feed. */
  lemma FenceOpenCopied(s: string)
    requires |s| >= 4 && s[..4] == "```\n"
    ensures NumberedScan(s, 0) == "```\n" + NumberedScan(s, 4)
  {
    FenceOpenHasNoDigit(s);
    NumberedScanCopiesRun(s, 0, 4);
    assert s[0..4] == s[..4];
  }

  /** A line feed and a closing fence hold no digit. */
  lemma FenceCloseHasNoDigit(s: string, e: nat)
    requires e + 4 == |s| && s[e..] == "\n```"
    ensures forall k :: e <= k < |s| ==> !IsDigit(s[k])
    ensures IsLineTerminator(s[e])
  {
    assert s[e] == '\n' && s[e + 1] == '`' && s[e + 2] == '`' && s[e + 3] == '`';
  }

  /** Rule 3 copies a line feed and a closing fence at the end of the input. */
  lemma FenceCloseCopied(s: string, e: nat)
    requires e + 4 == |s| && s[e..] == "\n```"
    ensures NumberedScan(s, e) == "\n```"
  {
    FenceCloseHasNoDigit(s, e);
    NumberedScanCopiesRun(s, e, |s|);
    assert NumberedScan(s, |s|) == [];
    assert s[e..|s|] == s[e..];
  }

  /** The layout of a fenced block holding one numbered line. */
  lemma FencedLineLayout(n: string, t: string)
    ensures var s := "```\n" + n + ". " + t + "\n```";
      var e := 4 + |n| + 2 + |t|;
      && e + 4 == |s| && s[..4] == "```\n" && s[4..e] == n + "." + [' '] + t && s[e..] == "\n```"
  {
    var s := "```\n" + n + ". " + t + "\n```";
    var e := 4 + |n| + 2 + |t|;
    assert s == "```\n" + (n + "." + [' '] + t) + "\n```";
  }

  /** Rule 3 inside a fence: the numbered line becomes its prompt item, the fence lines stay. */
  lemma FencedNumberedScan(n: string, t: string)
    requires |n| > 0 && AllDigits(n) && PlainLine(t)
    ensures NumberedScan("```\n" + n + ". " + t + "\n```", 0) == "```\n" + PromptItem(n, t) + "\n```"
  {
    var s := "```\n" + n + ". " + t + "\n```";
    FencedLineLayout(n, t);
    FencedScanParts(s, n, t, 4 + |n| + 2 + |t|);
  }

  /** Rule 3 over an opening fence, a numbered line and a closing fence, wherever they are spelled out. */
  lemma FencedScanParts(s: string, n: string, t: string, e: nat)
    requires |n| > 0 && AllDigits(n) && PlainLine(t) && e == 4 + |n| + 2 + |t|
    requires e + 4 == |s| && s[..4] == "```\n" && s[4..e] == n + "." + [' '] + t && s[e..] == "\n```"
    ensures NumberedScan(s, 0) == "```\n" + PromptItem(n, t) + "\n```"
  {
    FenceOpenEndsLine(s);
    FenceCloseStartsLine(s, e);
    FenceOpenCopied(s);
    FenceCloseCopied(s, e);
    FencedLineScan(s, n, t, e);
  }

  /** Rule 3 turns a numbered line that starts a line and is ended by a line terminator into its prompt item. */
  lemma FencedLineScan(s: string, n: string, t: string, e: nat)
    requires |n| > 0 && AllDigits(n) && PlainLine(t) && e == 4 + |n| + 2 + |t|
    requires LineStartAt(s, 4) && e < |s| && s[4..e] == n + "." + [' '] + t && IsLineTerminator(s[e])
    ensures NumberedScan(s, 4) == PromptItem(n, t) + NumberedScan(s, e)
  {
    NumberedLineScan(s, 4, n, ' ', t, e);
  }

  /** The text after an opening fence and its line feed starts a line. */
  lemma FenceOpenEndsLine(s: string)
    requires |s| >= 4 && s[..4] == "```\n"
    ensures LineStartAt(s, 4)
  {
    assert s[3] == s[..4][3];
  }

  /** A closing fence's line feed ends the line before it. */
  lemma FenceCloseStartsLine(s: string, e: nat)
    requires e + 4 == |s| && s[e..] == "\n```"
    ensures IsLineTerminator(s[e])
  {
    assert s[e] == s[e..][0];
  }

  /** The tags of a code block hold no backtick and no line feed. */
  lemma CodeBlockTagsPlain()
    ensures '`' !in "<pre><code>" && '`' !in "</code></pre>"
    ensures '\n' !in "<pre><code>" && '\n' !in "</code></pre>"
  {
  }

  /** Rule 4 over a fence around a line: the fence becomes the code block tags. */
  lemma CodeBlockAroundLine(p: string)
    requires '`' !in p
    ensures LazyScan("```\n" + p + "\n```", 0, CodeBlock) == "<pre><code>" + ("\n" + p + "\n") + "</code></pre>"
  {
    var x := "\n" + p + "\n";
    assert '`' !in x;
    LazyScanSingleSpan(CodeBlock, x);
    FenceAroundLine(p);
  }

  /** A fence, a line between two line feeds, and a fence: the input of rule 4 in pieces. */
  lemma FenceAroundLine(p: string)
    ensures CodeBlock.delim + ("\n" + p + "\n") + CodeBlock.delim == "```\n" + p + "\n```"
  {
    assert "```" + "\n" == "```\n";
    assert "\n" + "```" == "\n```";
  }

  /** Rule 6 on a line between two line feeds. */
  lemma BreaksAroundLine(p: string)
    requires '\n' !in p
    ensures NewlinesToBr("\n" + p + "\n") == "<br>" + p + "<br>"
  {
    NewlinesToBrConcat("\n" + p, "\n");
    NewlinesToBrConcat("\n", p);
    LineFeedToBreak();
  }

  /** Rule 6 leaves text without line feeds around its argument alone. */
  lemma BreaksBetween(a: string, m: string, b: string)
    requires '\n' !in a && '\n' !in b
    ensures NewlinesToBr(a + m + b) == a + NewlinesToBr(m) + b
  {
    NewlinesToBrConcat(a + m, b);
    NewlinesToBrConcat(a, m);
  }

  /** Rule 6 inside the code block tags. */
  lemma BreaksInsideCodeBlock(p: string)
    requires '\n' !in p
    ensures NewlinesToBr("<pre><code>" + ("\n" + p + "\n") + "</code></pre>")
         == "<pre><code><br>" + p + "<br></code></pre>"
  {
    CodeBlockTagsPlain();
    BreaksBetween("<pre><code>", "\n" + p + "\n", "</code></pre>");
    BreaksAroundLine(p);
    CodeBlockRegroups(p);
  }

  /** The code block tags and the two breaks around a line, regrouped. */
  lemma CodeBlockRegroups(p: string)
    ensures "<pre><code>" + ("<br>" + p + "<br>") + "</code></pre>" == "<pre><code><br>" + p + "<br></code></pre>"
  {
    assert "<pre><code>" + "<br>" == "<pre><code><br>";
    assert "<br>" + "</code></pre>" == "<br></code></pre>";
  }

  /** The code block around a prompt item holds no backtick and still holds the marker. */
  lemma CodeBlockAroundItem(p: string)
    requires '`' !in p && Contains(p, PromptItemMarker)
    ensures '`' !in "<pre><code>" + ("\n" + p + "\n") + "</code></pre>"
    ensures Contains("<pre><code><br>" + p + "<br></code></pre>", PromptItemMarker)
  {
    CodeBlockTagsPlain();
    ContainsInfix("<pre><code><br>", p, "<br></code></pre>", PromptItemMarker);
  }

  /**
   * Rule 3 runs before rule 4, so a numbered line inside a fenced code block still becomes a prompt
   * item: the output is a container around a code block holding the prompt item between two `<br>`.
   */
  lemma FormatNumberedInsideFence(n: string, t: string)
    requires |n| > 0 && AllDigits(n) && PlainLine(t)
    ensures Format("```\n" + n + ". " + t + "\n```")
         == ContainerOpen + "<pre><code><br>" + PromptItem(n, t) + "<br></code></pre>" + ContainerClose
  {
    var s := "```\n" + n + ". " + t + "\n```";
    var p := PromptItem(n, t);
    var u := "```\n" + p + "\n```";
    var v := "<pre><code>" + ("\n" + p + "\n") + "</code></pre>";
    var w := "<pre><code><br>" + p + "<br></code></pre>";
    DigitsArePlain(n);
    assert '*' !in s;
    EmphasisRulesSkip(s);
    FencedNumberedScan(n, t);
    ListItemPlain(n, t);
    CodeBlockAroundLine(p);
    CodeBlockAroundItem(p);
    InlineCodeScanWithoutBacktick(v, 0);
    assert v[0..] == v;
    BreaksInsideCodeBlock(p);
    RewriteByStages(s, s, s, u, v, v);
    FormatWrapped(s, w);
    WrapRegroups("<pre><code><br>", p, "<br></code></pre>");
  }
}

=== FILE: js_text.dfy ===
/**
 * The few pieces of JavaScript string semantics the widget relies on: the character classes its
 * regular expressions use, `String.prototype.includes`, `String.prototype.trim`, `substr`, and the
 * decimal rendering of a non-negative integer in a template literal.
 *
 * Characters are Unicode scalar values; JavaScript strings are UTF-16 code units. None of the
 * classes below contains a surrogate, so a character outside the Basic Multilingual Plane is
 * treated the same way as its two code units would be.
 */
module JsText {
  import opened Results

  /** ECMAScript LineTerminator: what `.` refuses to match and what `^`/`$` see in multiline mode. */
  predicate IsLineTerminator(c: char) {
    c == '\n' || c == '\r' || c == '\U{2028}' || c == '\U{2029}'
  }

  /** The regex class `\d`: ASCII decimal digits only. */
  predicate IsDigit(c: char) {
    '0' <= c <= '9'
  }

  /**
   * The regex class `\s`, which is also the set `trim` removes: ECMAScript WhiteSpace (tab, vertical
   * tab, form feed, space, no-break space, byte-order mark and every other space separator) plus
   * every LineTerminator.
   */
  predicate IsWhitespace(c: char) {
    || c == '\t' || c == '\U{000B}' || c == '\U{000C}' || c == ' ' || c == '\U{00A0}' || c == '\U{FEFF}'
    || c == '\U{1680}' || ('\U{2000}' <= c <= '\U{200A}') || c == '\U{202F}' || c == '\U{205F}'
    || c == '\U{3000}'
    || IsLineTerminator(c)
  }

  /** No character of `s` is a line terminator: `s` lies within one line. */
  predicate SingleLine(s: string) {
    '\n' !in s && '\r' !in s && '\U{2028}' !in s && '\U{2029}' !in s
  }

  // ---------------------------------------------------------------------------------------------
  // includes

  /** `pat` occurs in `s` starting at index `k`. */
  predicate OccursAt(s: string, pat: string, k: nat) {
    k + |pat| <= |s| && s[k..k + |pat|] == pat
  }

  /** `s.includes(pat)`. */
  predicate Contains(s: string, pat: string) {
    exists k: nat :: k <= |s| - |pat| && OccursAt(s, pat, k)
  }

  /** An occurrence inside `a` is an occurrence inside `a + b`. */
  lemma OccursInLeft(a: string, b: string, pat: string, k: nat)
    requires OccursAt(a, pat, k)
    ensures OccursAt(a + b, pat, k)
  {
    assert (a + b)[k..k + |pat|] == a[k..k + |pat|];
  }

  /** An occurrence inside `b` is an occurrence inside `a + b`, shifted by `|a|`. */
  lemma OccursInRight(a: string, b: string, pat: string, k: nat)
    requires OccursAt(b, pat, k)
    ensures OccursAt(a + b, pat, |a| + k)
  {
    assert (a + b)[|a| + k..|a| + k + |pat|] == b[k..k + |pat|];
  }

  /** An occurrence in `a + b` lies in `a`, in `b`, or covers the last of `a` and the first of `b`. */
  lemma OccursInConcat(a: string, b: string, pat: string, k: nat)
    requires OccursAt(a + b, pat, k)
    ensures || OccursAt(a, pat, k)
            || (k >= |a| && OccursAt(b, pat, k - |a|))
            || (k < |a| < k + |pat| && a[|a| - 1] in pat && b[0] in pat)
  {
    var ab := a + b;
    if k + |pat| <= |a| {
      assert a[k..k + |pat|] == ab[k..k + |pat|];
    } else if k >= |a| {
      assert b[k - |a|..k - |a| + |pat|] == ab[k..k + |pat|];
    } else {
      assert pat[|a| - 1 - k] == ab[|a| - 1] == a[|a| - 1];
      assert pat[|a| - k] == ab[|a|] == b[0];
    }
  }

  /**
   * An occurrence of `pat` in `a + b` that lies in neither part must cover both the last character
   * of `a` and the first character of `b`; when one of those is not in `pat`, searching the
   * concatenation is searching the parts.
   */
  lemma ContainsConcat(a: string, b: string, pat: string)
    requires (|a| == 0 || a[|a| - 1] !in pat) || (|b| == 0 || b[0] !in pat)
    ensures Contains(a + b, pat) <==> Contains(a, pat) || Contains(b, pat)
  {
    if Contains(a, pat) {
      var k: nat :| k <= |a| - |pat| && OccursAt(a, pat, k);
      OccursInLeft(a, b, pat, k);
    }
    if Contains(b, pat) {
      var k: nat :| k <= |b| - |pat| && OccursAt(b, pat, k);
      OccursInRight(a, b, pat, k);
    }
    if Contains(a + b, pat) {
      var k: nat :| k <= |a + b| - |pat| && OccursAt(a + b, pat, k);
      OccursInConcat(a, b, pat, k);
    }
  }

  /** A non-empty pattern does not occur where its first character is not. */
  lemma NotOccursAt(s: string, pat: string, k: nat)
    requires |pat| > 0 && (k >= |s| || s[k] != pat[0])
    ensures !OccursAt(s, pat, k)
  {
    if k + |pat| <= |s| {
      assert s[k..k + |pat|][0] == s[k];
    }
  }

  /** Whatever contains `m` contains it with anything around it. */
  lemma ContainsInfix(a: string, m: string, b: string, pat: string)
    requires Contains(m, pat)
    ensures Contains(a + m + b, pat)
  {
    var k: nat :| k <= |m| - |pat| && OccursAt(m, pat, k);
    OccursInRight(a, m, pat, k);
    OccursInLeft(a + m, b, pat, |a| + k);
  }

  /** A one-character string contains no non-empty pattern that lacks that character. */
  lemma SingleCharDoesNotContain(c: char, pat: string)
    requires |pat| > 0 && c !in pat
    ensures !Contains([c], pat)
  {
    assert pat[0] in pat;
    forall k: nat | k <= 1 - |pat|
      ensures !OccursAt([c], pat, k)
    {
      NotOccursAt([c], pat, k);
    }
  }

  /** A string shorter than the pattern cannot contain it. */
  lemma ShortDoesNotContain(s: string, pat: string)
    requires |s| < |pat|
    ensures !Contains(s, pat)
  {
  }

  // ---------------------------------------------------------------------------------------------
  // trim

  /** Every character is whitespace (vacuously so for the empty string). */
  predicate Blank(s: string) {
    forall k :: 0 <= k < |s| ==> IsWhitespace(s[k])
  }

  /** The leading-whitespace half of `trim`. */
  function TrimStart(s: string): (r: string)
    ensures |r| <= |s| && r == s[|s| - |r|..]
    ensures Blank(s[..|s| - |r|])
    ensures |r| == 0 || !IsWhitespace(r[0])
  {
    if |s| > 0 && IsWhitespace(s[0]) then TrimStart(s[1..]) else s
  }

  /** The trailing-whitespace half of `trim`. */
  function TrimEnd(s: string): (r: string)
    ensures |r| <= |s| && r == s[..|r|]
    ensures Blank(s[|r|..])
    ensures |r| == 0 || !IsWhitespace(r[|r| - 1])
  {
    if |s| > 0 && IsWhitespace(s[|s| - 1]) then TrimEnd(s[..|s| - 1]) else s
  }

  /** `s.trim()`. */
  function Trim(s: string): string {
    TrimEnd(TrimStart(s))
  }

  /**
   * `trim` removes a whitespace prefix and a whitespace suffix and keeps the slice between them,
   * whose first and last characters are not whitespace.
   */
  lemma TrimIsSlice(s: string)
    ensures var r := Trim(s);
      exists lo: nat, hi: nat ::
        && lo <= hi <= |s| && r == s[lo..hi] && Blank(s[..lo]) && Blank(s[hi..])
        && (|r| == 0 || (!IsWhitespace(r[0]) && !IsWhitespace(r[|r| - 1])))
  {
    var t := TrimStart(s);
    var r := TrimEnd(t);
    var lo: nat := |s| - |t|;
    var hi: nat := lo + |r|;
    SliceOfSuffix(s, lo, |r|);
    assert |r| == 0 || r[0] == t[0];
  }

  /** A prefix of the suffix from `lo` is a slice, and what follows it is the rest of that suffix. */
  lemma SliceOfSuffix(s: string, lo: nat, len: nat)
    requires lo + len <= |s|
    ensures s[lo..][..len] == s[lo..lo + len] && s[lo..][len..] == s[lo + len..]
  {
  }

  /** What `trim` leaves starts and ends with a character other than whitespace. */
  lemma TrimEnds(s: string)
    ensures var r := Trim(s); |r| == 0 || (!IsWhitespace(r[0]) && !IsWhitespace(r[|r| - 1]))
  {
    var t := TrimStart(s);
    var r := TrimEnd(t);
    assert |r| == 0 || r[0] == t[0];
  }

  /** The input is blank after trimming exactly when every character is whitespace. */
  lemma TrimBlankIff(s: string)
    ensures Trim(s) == [] <==> Blank(s)
  {
    var t := TrimStart(s);
    if Trim(s) == [] {
      assert t == t[0..];
      assert s == s[..|s| - |t|] + t;
    }
  }

  // ---------------------------------------------------------------------------------------------
  // substr

  /** `s.substr(start, length)` for non-negative arguments: both ends clamp to the string. */
  function Substr(s: string, start: nat, length: nat): (r: string)
    ensures |r| <= length
    ensures start <= |s| ==> start + |r| <= |s| && r == s[start..start + |r|]
    ensures start + length <= |s| ==> |r| == length
    ensures |r| == (if start <= |s| then (if start + length <= |s| then length else |s| - start) else 0)
  {
    var lo := if start <= |s| then start else |s|;
    var hi := if lo + length <= |s| then lo + length else |s|;
    s[lo..hi]
  }

  /**
   * `s` without a fixed start `pre` and a fixed end `post`, when it has both and they do not
   * overlap: how a name built by a template literal around one value is read back.
   */
  function StripAround(s: string, pre: string, post: string): (r: Option<string>)
    ensures r.Some? ==> s == pre + r.value + post
  {
    if |pre| + |post| <= |s| && s[..|pre|] == pre && s[|s| - |post|..] == post
    then Some(s[|pre|..|s| - |post|])
    else None
  }

  /** Whatever sits between `pre` and `post` is read back. */
  lemma StripAroundRoundTrip(pre: string, x: string, post: string)
    ensures StripAround(pre + x + post, pre, post) == Some(x)
  {
    var s := pre + x + post;
    assert s[..|pre|] == pre;
    assert s[|s| - |post|..] == post;
    assert s[|pre|..|s| - |post|] == x;
  }

  // ---------------------------------------------------------------------------------------------
  // decimal rendering of integers

  predicate AllDigits(s: string) {
    forall k :: 0 <= k < |s| ==> IsDigit(s[k])
  }

  function DigitChar(d: nat): (c: char)
    requires d < 10
    ensures IsDigit(c) && c as int - '0' as int == d
  {
    ('0' as int + d) as char
  }

  /**
   * How a non-negative integer appears in a template literal (`${response.status}`,
   * `'session_' + Date.now()`): its shortest decimal digits.
   */
  function Decimal(n: nat): (r: string)
    ensures |r| > 0 && AllDigits(r)
    ensures r[0] == '0' ==> n == 0 && |r| == 1
    decreases n
  {
    if n < 10 then [DigitChar(n)] else Decimal(n / 10) + [DigitChar(n % 10)]
  }

  /** The number a string of decimal digits denotes; the reference reading of `Decimal`. */
  function DigitsValue(s: string): nat
    requires AllDigits(s)
  {
    if |s| == 0 then 0 else DigitsValue(s[..|s| - 1]) * 10 + (s[|s| - 1] as int - '0' as int)
  }

  /** Reading back what `Decimal` wrote gives the number. */
  lemma {:induction false} DecimalRoundTrip(n: nat)
    ensures DigitsValue(Decimal(n)) == n
    decreases n
  {
    if n >= 10 {
      var r := Decimal(n);
      assert r[..|r| - 1] == Decimal(n / 10);
      DecimalRoundTrip(n / 10);
    }
  }

  /** Different numbers are rendered differently. */
  lemma DecimalInjective(m: nat, n: nat)
    requires Decimal(m) == Decimal(n)
    ensures m == n
  {
    DecimalRoundTrip(m);
    DecimalRoundTrip(n);
  }

  /** A common prefix can be cancelled. */
  lemma PrefixCancel(p: string, x: string, y: string)
    requires p + x == p + y
    ensures x == y
  {
    assert x == (p + x)[|p|..];
    assert y == (p + y)[|p|..];
  }

  /** Where a digit string followed by `a` is matched by a longer digit string, `a` starts with a digit. */
  lemma DigitsBoundary(x: string, a: string, y: string, b: string)
    requires AllDigits(y) && |a| > 0 && x + a == y + b
    ensures |x| < |y| ==> IsDigit(a[0])
  {
    if |x| < |y| {
      assert (x + a)[|x|] == a[0];
      assert (y + b)[|x|] == y[|x|];
    }
  }

  /**
   * A number written in decimal and followed by text that does not start with a digit can be read
   * back: the digits end where the text begins, so both the number and the text are determined.
   */
  lemma DecimalPrefixInjective(m: nat, n: nat, a: string, b: string)
    requires |a| > 0 && !IsDigit(a[0]) && |b| > 0 && !IsDigit(b[0])
    requires Decimal(m) + a == Decimal(n) + b
    ensures m == n && a == b
  {
    var dm, dn := Decimal(m), Decimal(n);
    DigitsBoundary(dm, a, dn, b);
    DigitsBoundary(dn, b, dm, a);
    assert dm == (dm + a)[..|dm|] == (dn + b)[..|dn|] == dn;
    assert a == (dm + a)[|dm|..] == (dn + b)[|dn|..] == b;
    DecimalInjective(m, n);
  }
}

=== FILE: results.dfy ===
/** Optional values and success-or-error values, shared by every module of the model. */
module Results {

  /** A value that may be absent: a regex that does not match, a property read that yields `undefined`. */
  datatype Option<+T> = None | Some(value: T)

  /** The outcome of a computation that can throw: `Ok` carries the value, `Err` what was thrown. */
  datatype Result<+T, +E> = Ok(value: T) | Err(error: E)
}

=== FILE: webhook.dfy ===
/**
 * What the widget does with the answer of its webhook (`callWebhook`): it turns the transport
 * outcome into either the reply to show or the error to report. The network call itself is an input:
 * the model receives what `fetch` and `response.json()` produced and computes what `callWebhook`
 * returns or throws.
 */
module Webhook {
  import opened Results
  import opened JsText

  /** A value `response.json()` can produce. */
  datatype Json =
    | JNull
    | JBool(b: bool)
    | JNumber(n: real)
    | JString(s: string)
    | JArray(items: seq<Json>)
    | JObject(fields: map<string, Json>)

  /** ECMAScript ToBoolean on a JSON value: `null`, `false`, `0` and `""` are falsy, everything else truthy. */
  predicate Truthy(v: Json) {
    match v
    case JNull => false
    case JBool(b) => b
    case JNumber(n) => n != 0.0
    case JString(s) => |s| > 0
    case JArray(_) => true
    case JObject(_) => true
  }

  /**
   * Reading `v.output`, `v.text` or `v.response` on a value other than `null`: an object's own
   * field, or `undefined` (`None`). No JSON value has one of these three keys as a built-in or
   * inherited property, so a missing field, a string, a number, a boolean and an array all read as
   * `undefined`; for keys such as `length` or `toString` this would not hold.
   */
  function Property(v: Json, key: string): (r: Option<Json>)
    requires !v.JNull?
    ensures r.Some? <==> v.JObject? && key in v.fields
    ensures r.Some? ==> r.value == v.fields[key]
  {
    if v.JObject? && key in v.fields then Some(v.fields[key]) else None
  }

  /** `if (v.key)`: the property exists and is truthy (`undefined` is falsy). */
  predicate TruthyProperty(v: Json, key: string)
    requires !v.JNull?
  {
    Property(v, key).Some? && Truthy(Property(v, key).value)
  }

  /** The fields the workflow may carry its answer in, in the order they are tried. */
  const ReplyFields: seq<string> := ["output", "text", "response"]

  /**
   * The first of `keys[from..]` whose property is truthy, with its value; `None` when none is.
   */
  function FirstTruthy(v: Json, keys: seq<string>, from: nat): (r: Option<(nat, Json)>)
    requires !v.JNull? && from <= |keys|
    ensures r.Some? ==>
      && from <= r.value.0 < |keys| && TruthyProperty(v, keys[r.value.0])
      && r.value.1 == v.fields[keys[r.value.0]]
      && forall j :: from <= j < r.value.0 ==> !TruthyProperty(v, keys[j])
    ensures r.None? ==> forall j :: from <= j < |keys| ==> !TruthyProperty(v, keys[j])
    decreases |keys| - from
  {
    if from == |keys| then None
    else if TruthyProperty(v, keys[from]) then Some((from, v.fields[keys[from]]))
    else FirstTruthy(v, keys, from + 1)
  }

  /** What JavaScript throws: an `Error` object's `name` and `message`. */
  datatype JsError = JsError(name: string, message: string)

  /**
   * The reply read out of the parsed body: the first truthy of `output`, `text` and `response`;
   * failing that a string body itself; failing that the body pretty-printed by `pretty`
   * (`JSON.stringify(data, null, 2)`, which the model does not look into). A `null` body has no
   * properties, so reading `data.output` throws a `TypeError` whose wording, `nullRead`, is the
   * engine's.
   */
  function ExtractReply(data: Json, pretty: Json -> string, nullRead: string): (r: Result<Json, JsError>)
    ensures data.JNull? <==> r.Err?
    ensures data.JNull? ==> r.error == JsError("TypeError", nullRead)
    ensures forall i :: (0 <= i < |ReplyFields| && !data.JNull? && TruthyProperty(data, ReplyFields[i])
                         && (forall j :: 0 <= j < i ==> !TruthyProperty(data, ReplyFields[j])))
                        ==> r == Ok(data.fields[ReplyFields[i]])
    ensures !data.JNull? && (forall i :: 0 <= i < |ReplyFields| ==> !TruthyProperty(data, ReplyFields[i]))
      ==> r == Ok(if data.JString? then data else JString(pretty(data)))
  {
    if data.JNull? then Err(JsError("TypeError", nullRead))
    else match FirstTruthy(data, ReplyFields, 0)
      case Some((_, v)) => Ok(v)
      case None => if data.JString? then Ok(data) else Ok(JString(pretty(data)))
  }

  /** The `if` / `else if` chain of `callWebhook` written out field by field, for a body other than `null`. */
  function ReplyChain(data: Json, pretty: Json -> string): Json
    requires !data.JNull?
  {
    if TruthyProperty(data, "output") then data.fields["output"]
    else if TruthyProperty(data, "text") then data.fields["text"]
    else if TruthyProperty(data, "response") then data.fields["response"]
    else if data.JString? then data
    else JString(pretty(data))
  }

  /** Searching the reply fields in order is the chain of tests the widget spells out. */
  lemma ExtractReplyIsChain(data: Json, pretty: Json -> string, nullRead: string)
    requires !data.JNull?
    ensures ExtractReply(data, pretty, nullRead) == Ok(ReplyChain(data, pretty))
  {
    assert ReplyFields[0] == "output" && ReplyFields[1] == "text" && ReplyFields[2] == "response";
  }

  /** The outcome of `response.json()`: the parsed body, or what it threw (a body that is not JSON). */
  datatype BodyOutcome = Parsed(data: Json) | Unparsable(error: JsError)

  /** The outcome of `fetch`: it rejected with an error, or a response arrived with this status and body. */
  datatype FetchOutcome =
    | FetchRejected(error: JsError)
    | Responded(status: nat, statusText: string, body: BodyOutcome)

  /** `response.ok`: the status is in the range 200 to 299 (the Fetch standard's "ok status"). */
  predicate OkStatus(status: nat) {
    200 <= status <= 299
  }

  /** The message of the error thrown for a response that is not ok: `HTTP <status>: <statusText>`. */
  function HttpErrorMessage(status: nat, statusText: string): string {
    "HTTP " + Decimal(status) + ": " + statusText
  }

  /** The message of an HTTP error determines both the status and the status text it reports. */
  lemma HttpErrorMessageInjective(status1: nat, text1: string, status2: nat, text2: string)
    requires HttpErrorMessage(status1, text1) == HttpErrorMessage(status2, text2)
    ensures status1 == status2 && text1 == text2
  {
    var a, b := ": " + text1, ": " + text2;
    HttpErrorMessageParts(status1, text1);
    HttpErrorMessageParts(status2, text2);
    PrefixCancel("HTTP ", Decimal(status1) + a, Decimal(status2) + b);
    DecimalPrefixInjective(status1, status2, a, b);
    PrefixCancel(": ", text1, text2);
  }

  /** The parts of an HTTP error message, grouped after its fixed start. */
  lemma HttpErrorMessageParts(status: nat, statusText: string)
    ensures HttpErrorMessage(status, statusText) == "HTTP " + (Decimal(status) + (": " + statusText))
    ensures !IsDigit((": " + statusText)[0])
  {
  }

  /** The message that replaces a `TypeError` mentioning `fetch`. */
  const NetworkErrorMessage := NetworkErrorHead + NetworkErrorAdvice

  const NetworkErrorHead := "Network error: "
  const NetworkErrorAdvice := "Please make sure you're accessing this page from a web server (not file://) or try again. The service might be temporarily unavailable."

  /** The network message cannot be mistaken for an HTTP error message: one starts with `N`, the other with `H`. */
  lemma NetworkMessageIsNotHttp(status: nat, statusText: string)
    ensures NetworkErrorMessage != HttpErrorMessage(status, statusText)
  {
    assert NetworkErrorMessage[0] == NetworkErrorHead[0] == 'N';
    assert HttpErrorMessage(status, statusText)[0] == 'H';
  }

  /** The body of the `try` in `callWebhook`: what it returns, or what it throws. */
  function Attempt(outcome: FetchOutcome, pretty: Json -> string, nullRead: string): Result<Json, JsError> {
    match outcome
    case FetchRejected(e) => Err(e)
    case Responded(status, statusText, body) =>
      if !OkStatus(status) then Err(JsError("Error", HttpErrorMessage(status, statusText)))
      else match body
        case Unparsable(e) => Err(e)
        case Parsed(data) => ExtractReply(data, pretty, nullRead)
  }

  /**
   * The `catch` of `callWebhook`: a `TypeError` whose message mentions `fetch` becomes a plain
   * `Error` with the network message; every other error is rethrown unchanged.
   */
  function CatchMapping(e: JsError): (r: JsError)
    ensures e.name == "TypeError" && Contains(e.message, "fetch") ==> r == JsError("Error", NetworkErrorMessage)
    ensures !(e.name == "TypeError" && Contains(e.message, "fetch")) ==> r == e
    ensures !(r.name == "TypeError" && Contains(r.message, "fetch"))
  {
    if e.name == "TypeError" && Contains(e.message, "fetch") then JsError("Error", NetworkErrorMessage) else e
  }

  /** `callWebhook`: the attempt, with what it throws passed through the catch mapping. */
  function CallWebhook(outcome: FetchOutcome, pretty: Json -> string, nullRead: string): (r: Result<Json, JsError>)
    ensures r.Ok? <==> outcome.Responded? && OkStatus(outcome.status) && outcome.body.Parsed? && !outcome.body.data.JNull?
    ensures r.Ok? ==> r == ExtractReply(outcome.body.data, pretty, nullRead)
    ensures outcome.Responded? && !OkStatus(outcome.status)
      ==> r == Err(JsError("Error", HttpErrorMessage(outcome.status, outcome.statusText)))
    ensures outcome.FetchRejected? ==> r == Err(CatchMapping(outcome.error))
    ensures outcome.Responded? && OkStatus(outcome.status) && outcome.body.Unparsable?
      ==> r == Err(CatchMapping(outcome.body.error))
    ensures outcome.Responded? && OkStatus(outcome.status) && outcome.body.Parsed? && outcome.body.data.JNull?
      ==> r == Err(CatchMapping(JsError("TypeError", nullRead)))
  {
    match Attempt(outcome, pretty, nullRead)
    case Ok(v) => Ok(v)
    case Err(e) => Err(CatchMapping(e))
  }
}
